=== FILE: README.md ===
# edunexus business rules in Dafny

This project models the business rules of the edunexus e-learning marketplace, a Django REST Framework backend:

- **Orders and coupons.**
  - The price breakdown (discount, 5% tax, total).
  - The order service's guards: you cannot buy your own course, you cannot buy twice, the coupon must be valid, the minimum order value must be met, and the balance must cover the total.
  - The balance debit.
  - The independent debit-on-first-save rule of the `Order` model.
  - Coupon validation and creation.
  - Enrolment after a purchase.
  - The expiry-notification scan and its `notified` flag.
- **Users.**
  - Email verification: a 6-digit code stored in a key/value cache under a forward key and a reverse key, and the four outcomes of checking a submitted code.
  - Registration.
  - The initial account balance of 50.
  - The registration, token, amount and password-reset validators.
- **Courses, reviews and categories.**
  - The permission decision tables of the viewsets.
  - The review rules.
  - Get-or-reuse of categories and tags.
  - Course creation and update with their tag sets.
  - The course filters: tags, minimum rating, and case-insensitive substring filters.
  - `average_rating`.
  - The cache-aside list endpoints.
  - The popular-courses ordering.

Each source file is a Dafny module. Shared modules:

- `Entities` holds the rows.
- `Store` holds the database class `Db`, with one field per table, and the cache class `Cache`.
- `Query` holds the queryset operations: `filter`, `exists`, `first`, `get` and `distinct`.
- `Text` holds decimal formatting, `str.split` and `icontains`.

Operations that change state are methods on a `Db` or `Cache`, and they declare the table fields they write in their `modifies` clauses. Each such method is tied to a pure function that specifies its result, and the rules the source promises are proved about those functions as lemmas.

Numeric and environment conventions:

- Money (`Decimal`) is `real`, computed exactly.
- Percentages and ratings are `int`.
- Times are whole seconds.
- Randomness is a nondeterministic choice in range.
- `Coupon.is_valid` and `PasswordResetTokenGenerator.check_token` are function parameters.
- The outcome of sending an email is a parameter.

## Model

| member | source | states |
|---|---|---|
| OrdersCalculation.CalculateFinalPrice | orders/services/order_calculation.py:4-22 | final = base × (100 − d)/100; tax = final × t/100, on the discounted price; total = final + tax exactly, = base × (100 − d)(100 + t)/10000 |
| OrdersCalculation.DefaultsLeavePriceUnchanged | orders/services/order_calculation.py:4-21 | with the default arguments, final = base, tax = 0 and total = base |
| OrdersCalculation.FinalPriceWithinBase | orders/services/order_calculation.py:18-21 | for base ≥ 0, 0 ≤ d ≤ 100 and t ≥ 0: 0 ≤ final ≤ base, tax ≥ 0, and total ≥ final |
| OrdersCalculation.LargerDiscountNeverCostsMore | orders/services/order_calculation.py:18-21 | for base ≥ 0 and t ≥ 0, a larger discount never gives a larger final price or total |
| OrdersService.CouponFor | orders/services/order_service.py:31 | a found coupon is the first in table order with the given code; a non-blank code that some coupon has always finds a coupon; an absent or blank code finds none |
| OrdersService.ValidateCoupon | orders/services/order_service.py:40-48 | accepts iff the coupon is valid and, when a non-zero minimum applies, the price is not below it; an invalid coupon is rejected first, and otherwise the error is the below-minimum one |
| OrdersService.NewOrderService | orders/services/order_service.py:28-38 | no course with the title gives 404; two or more give MultipleObjectsReturned; otherwise, in order, the own-course, already-ordered and coupon checks; on success the service holds that user, course and coupon (the accepting direction is `ValidCouponIsAccepted` and `UnknownCodeMeansNoCoupon`) |
| OrdersService.UniqueTitleIsFound | orders/services/order_service.py:30 | `get_object_or_404(Course, title=…)` returns the course when it is the only one with that title |
| OrdersService.OwnCourseIsRefused | orders/services/order_service.py:33-34 | ordering a course you teach fails with "You cannot order your own course." |
| OrdersService.SecondOrderIsRefused | orders/services/order_service.py:35-36 | ordering a course you already have an order for fails |
| OrdersService.UnknownCodeMeansNoCoupon | orders/services/order_service.py:31-38 | a code no coupon has gives no coupon and no coupon error, so the final price is the course price |
| OrdersService.InvalidCouponIsRefused | orders/services/order_service.py:37-46 | a found coupon that is not valid makes the service fail with the coupon error |
| OrdersService.ValidCouponIsAccepted | orders/services/order_service.py:28-48 | a uniquely titled course that the buyer neither teaches nor has ordered, with a found coupon that passes `validate_coupon`, yields the service with that coupon, and the price carries its discount |
| OrdersService.MinimumOrderValueIsInclusive | orders/services/order_service.py:47-48 | with a non-zero minimum, price == minimum is accepted and price < minimum is rejected |
| OrdersService.CalculatePrice | orders/services/order_service.py:50-62 | the service's pricing is a 5% tax on the price less the coupon's discount; without a coupon, final = course price |
| OrdersService.OrderRow | orders/services/order_service.py:76-82 | the recorded order has that user and course, amount = final price and tax_amount = tax |
| OrdersService.PlaceOrder | orders/services/order_service.py:64-82 | no balance row gives 404; balance < total gives the insufficient-balance error; every failure leaves balances and orders unchanged; success debits exactly the total and appends exactly the order row |
| Store.Db.SubtractBalance | orders/services/order_service.py:74 | `subtract_balance` lowers that user's balance by the amount; other balances are unchanged |
| OrdersModels.Order.constructor | orders/models.py:6-11 | a new order has status 'pending' and no primary key |
| OrdersModels.Order.Clean | orders/models.py:19-22 | passes iff the user has a balance of at least the price |
| OrdersModels.Order.Save | orders/models.py:24-29 | a failing `clean` saves and debits nothing; the first save debits exactly the price; a re-save debits nothing; a second row for the same (user, course) is refused; unique (user, course) is preserved |
| OrdersModels.SaveTwice | orders/models.py:24-29 | saving a new order twice debits the price exactly once |
| OrdersSerializers.ValidateCourseTitle | orders/serializers.py:50-53 | accepts iff some course has the title; the value is returned unchanged |
| OrdersSerializers.ValidateCouponCode | orders/serializers.py:55-58 | an absent or blank code passes unchanged; a non-blank code passes iff an active coupon has it |
| OrdersSerializers.ValidateCoupon | orders/serializers.py:90-102 | accepts iff the user teaches every linked course and 0 < discount ≤ 100, with a missing discount counting as 0; the first course the user does not teach is named in the error |
| OrdersSerializers.CreateCoupon | orders/serializers.py:104-111 | the new coupon's creator is the requester and its course set is exactly the submitted list; the other fields are the validated ones; it is appended with a fresh id |
| OrdersSignals.AfterOrder | orders/signals.py:30-40 | a missing user or course is a no-op; an existing enrolment leaves the table unchanged; otherwise exactly one new enrolment (user, course) is appended; no other row changes |
| OrdersSignals.EnrollUserAfterOrder | orders/signals.py:16-40 | the enrolment table becomes `AfterOrder` of the old one, and nothing else changes |
| OrdersSignals.EnrollIsIdempotent | orders/signals.py:36-40 | running the receiver twice with the same arguments equals running it once |
| OrdersSignals.EnrollKeepsEnrollmentsUnique | orders/signals.py:36-37 | the receiver keeps (user, course) unique among enrolments |
| OrdersSignals.EnrollAddsAtMostOne | orders/signals.py:36-37 | the table grows by one row iff the user was not enrolled, and otherwise by none |
| OrdersTasks.ExpiringCoupons | orders/tasks.py:59-66 | selects exactly the coupons with now ≤ valid_until ≤ now + 2 days that are active and not yet notified about |
| OrdersTasks.ScanAndNotifyExpiringCoupons | orders/tasks.py:54-71 | schedules exactly the selected coupons' ids, one per selected coupon, with no repeats when ids are unique, and reports that count |
| OrdersTasks.ScheduledAreSelected | orders/tasks.py:61-69 | the scheduled ids are exactly the ids of the coupons the scan selects |
| OrdersTasks.ScheduledAreDistinct | orders/tasks.py:68-69 | with unique, increasing coupon ids, no coupon is scheduled twice |
| OrdersTasks.ReturnValue | orders/tasks.py:46-51 | the task returns nothing iff the coupon was not eligible |
| OrdersTasks.NotifyOutcome | orders/tasks.py:31-51 | a missing id gives the "does not exist" outcome; mail is sent only for an active, not-yet-notified coupon; the skipped outcome (`None`) only for an ineligible one (the converses are `EligibleCouponIsSent` and `IneligibleCouponIsSkipped`) |
| OrdersTasks.IneligibleCouponIsSkipped | orders/tasks.py:31-51 | the only coupon with the id, inactive or already notified about, is skipped whatever the mail would do, and the task returns `None` |
| OrdersTasks.EligibleCouponIsSent | orders/tasks.py:31-51 | the only coupon with the id, active and not yet notified about, is sent when the mail succeeds and ends with the error's text when it raises |
| OrdersTasks.MarkNotified | orders/tasks.py:44-45 | rows with that id get `notified` set; every other row is unchanged |
| OrdersTasks.SendCouponExpiryNotification | orders/tasks.py:26-51 | sets the flag only when the mail is sent; every other path, including a missing coupon or a mail error, leaves the coupon table unchanged; the return value matches the outcome |
| OrdersTasks.SentMarksCoupon | orders/tasks.py:44-45 | after a sent notification, the coupon is flagged as notified |
| OrdersTasks.SecondNotificationIsNoOp | orders/tasks.py:33 | notifying about the same coupon again sends nothing, so it changes nothing |
| OrdersTasks.NotifiedCouponIsNotRescanned | orders/tasks.py:61-66 | a coupon flagged as notified is never selected by a later scan |
| OrdersViews.GetSerializerClass | orders/views.py:16-23 | `CreateOrderSerializer` iff the action is 'create' |
| OrdersViews.OrderQueryset | orders/views.py:25-29 | exactly the requester's orders |
| OrdersViews.CouponQueryset | orders/views.py:53-57 | exactly the coupons the requester created |
| OrdersViews.StatusCode | orders/views.py:39-43 | 201 iff created; 400 iff a `ValueError` was caught |
| OrdersViews.ErrorResponse | orders/views.py:31-40 | a `ValueError` from the service becomes 400 with its message; a 404 stays 404 |
| OrdersViews.Create | orders/views.py:31-43 | a service error yields its response and creates nothing: a constructor error maps through `ErrorResponse`, a missing balance row gives 404 and an insufficient balance gives 400; 201 iff the balance covers the total, with the created order and exactly the total debited; unique (user, course) orders are preserved |
| UsersVerification.KeysAreDistinct | users/utils/verification.py:19-22 | the forward key and the reverse key never collide, and each is injective |
| UsersVerification.WithCode | users/utils/verification.py:19-23 | the forward key holds the code and the reverse key holds the user id, both for 600 s; every other entry is unchanged |
| UsersVerification.GenerateVerificationCode | users/utils/verification.py:5-25 | the returned code is the decimal text of a number in 100000..999999, so it has exactly 6 digits; the cache becomes `WithCode` of the old one with that code |
| UsersVerification.RegenerateKeepsOldReverseEntry | users/utils/verification.py:20-23 | regenerating overwrites the forward entry, but the old code's reverse entry remains |
| UsersViews.VerifyStatus | users/views.py:59-76 | 200 iff verified; 400 iff the code expired or was incorrect |
| UsersViews.VerifyOutcomeOf | users/views.py:53-76 | an absent or empty cached code means expired; otherwise a different code means incorrect; a matching code for a missing user means 404, and for an existing user verified, or 500 when the success mail raises |
| UsersViews.VerifyEmailCode | users/views.py:53-76 | a verified answer sets `is_verified` on that user and deletes the cache key; when the success mail raises, the flag is still saved but the key stays and the answer is 500; expired, incorrect and 404 change neither users nor cache |
| UsersViews.RepeatedVerificationExpires | users/views.py:57-72 | after a successful verification deletes the key, the same request yields "expired or invalid" |
| UsersViews.FailedMailLeavesCodeReplayable | users/views.py:63-72 | after the success mail raises, the user is verified and the code is still cached, so replaying it verifies again |
| UsersViews.GeneratedCodeVerifies | users/views.py:56-63 | submitting the code just generated for an existing user verifies it, and any other code is incorrect |
| UsersViews.NewUser | users/serializers.py:38-39 | the created user takes the validated username, email, hashed password and role, and is neither verified nor staff |
| UsersViews.CreateUser | users/serializers.py:38-39 | the new user is appended under the next primary key, and the table invariant is kept |
| UsersViews.RegisterUser | users/views.py:31-43 | invalid data creates nothing; otherwise it inserts the user and runs the balance signal (a refused balance leaves the cache alone), generates a code for the new id and returns that id with the code; when sending the code raises, every write is kept and the answer is 500 |
| UsersSerializers.ValidateRegistration | users/serializers.py:31-36 | rejects iff password ≠ confirm_password, or a missing confirm_password (`KeyError` when `validate` is called directly; through `is_valid()` the required field of users/serializers.py:17 rejects it first, also as a 400); on success `confirm_password` is removed and nothing else changes |
| UsersSerializers.TokenValidate | users/serializers.py:48-54 | tokens are issued iff authentication succeeded and the email is verified |
| UsersSerializers.ValidateAmount | users/serializers.py:95-98 | accepts iff amount > 0; the value is returned unchanged |
| UsersSerializers.ValidateResetEmail | users/serializers.py:109-112 | accepts iff some user has the email |
| UsersSerializers.ResetConfirmValidate | users/serializers.py:125-138 | checks the email first (no user gives the email error; several give MultipleObjectsReturned) and then the token; the token error iff one user has the email and the token fails; success iff one user has the email and the token checks |
| UsersSerializers.ResetSave | users/serializers.py:140-147 | replaces the password of the one user with that email; every other row is unchanged |
| UsersSerializers.ValidatedResetIsSaved | users/serializers.py:125-147 | data that passed validation names exactly one user, so the save succeeds |
| UsersSignals.BalancesAfterSave | users/signals.py:17-18 | a created user gets a balance of 50; an update, or a user that already has a row, changes nothing; existing balances are unchanged |
| UsersSignals.CreateAccountBalance | users/signals.py:5-19 | the balance table becomes `BalancesAfterSave`; a second balance for the same user is refused |
| UsersSignals.OneBalancePerUser | users/signals.py:17-18 | creating adds exactly one balance, owned by the new user |
| ReviewsSerializers.ValidateRating | reviews/serializers.py:37-40 | accepts iff 1 ≤ rating ≤ 5; the value is returned unchanged |
| ReviewsSerializers.CourseByPk | reviews/serializers.py:44-45 | the course with that primary key, if any |
| ReviewsSerializers.Validate | reviews/serializers.py:42-48 | accepts iff the URL course exists and the requester does not teach it |
| ReviewsSerializers.Create | reviews/serializers.py:50-58 | a missing `course_pk` raises `KeyError`; the created review has user = requester and course = URL course; failures add nothing |
| ReviewsViews.GetQueryset | reviews/views.py:33-37 | with a `course_pk`, exactly that course's reviews; without one, none |
| ReviewsViews.PerformCreate | reviews/views.py:39-44 | a missing `course_pk` raises `KeyError`; the review is linked to the URL course and the requester, whatever the client sent |
| ReviewsViews.ReviewWritesNeedTheAuthor | reviews/views.py:31 | `IsAuthenticatedOrReadOnly` composed with `IsReviewOwner`: anyone may read, any logged-in user may post, and only the author may change or delete a review |
| ReviewsPermissions.ReviewOwnerDependsOnAuthorOnly | reviews/permissions.py:8-11 | `IsReviewOwner` depends only on the method, the requester and the review's author |
| CoursesPermissions.CourseOwnerDependsOnInstructorOnly | courses/permissions.py:9-12 | `IsCourseOwner` reads only the method, the requester and the course's instructor, so editing a course's other fields never changes who may write it |
| CategoriesViews.CategoryPermissions | categories/views.py:18-21 | exactly one class: AllowAny iff the action is list or retrieve, IsAdminUser otherwise |
| CategoriesSerializers.CategoryToInternal | categories/serializers.py:28-34 | an existing name returns that category; an unknown name falls through to field parsing; a duplicated name raises MultipleObjectsReturned |
| CategoriesSerializers.TagToInternal | categories/serializers.py:56-67 | non-dict input is rejected; a missing or empty name is rejected with the name error; an existing name returns that tag; an unknown name falls through |
| CategoriesSerializers.ExistingTagIsReused | categories/serializers.py:61-63 | a tag name held by exactly one tag returns that tag |
| CategoriesSerializers.ExistingCategoryIsReused | categories/serializers.py:29-32 | a category name held by exactly one category returns that category |
| CoursesSerializers.SavedPrefix | courses/serializers.py:24-25 | the tags added before the first unsaved one |
| CoursesSerializers.SavedPrefixIsFirstParsed | courses/serializers.py:24-25 | the saved prefix ends exactly at the first unsaved tag |
| CoursesSerializers.AddTags | courses/serializers.py:24-25 | adds the tags one by one; it stops at the first unsaved tag and keeps the ones added before it; the course row's tag set is exactly the tags added |
| CoursesSerializers.CreateCourse | courses/serializers.py:15-27 | the instructor is the requester; the category and tag set are the submitted ones; an unsaved category creates nothing; an unsaved tag leaves the course stored with the tags added before it |
| CoursesSerializers.UpdateCourse | courses/serializers.py:29-45 | a partial update without category or tags raises `KeyError` and changes nothing; otherwise sets the category, keeps the old title or description when it is absent, and the tag set becomes exactly the submitted tags; on an unsaved tag the new fields stay saved, the old tags are gone and only the tags before it are kept; the instructor is unchanged |
| CoursesFilters.JoinRows | courses/filters.py:35 | the join holds a course iff one of its tags has a listed name |
| CoursesFilters.FilterTags | courses/filters.py:33-35 | the value is split on ','; a course is kept iff one of its tags' names is in that list; no course appears twice |
| CoursesFilters.FilterMinRating | courses/filters.py:37-40 | keeps a course iff it has reviews and its average rating is non-zero and ≥ the value; the result is a sub-multiset of the input |
| CoursesFilters.FilterTitle | courses/filters.py:23 | keeps exactly the courses whose title contains the value, ignoring case |
| CoursesFilters.FilterCategory | courses/filters.py:24 | keeps exactly the courses whose category name contains the value, ignoring case |
| CoursesFilters.FilterInstructor | courses/filters.py:25 | keeps exactly the courses whose instructor's username contains the value, ignoring case |
| CoursesFilters.ApplyFilters | courses/filters.py:23-40 | a course is listed iff it passes every filter whose parameter is given |
| CoursesModels.NewEnrollment | courses/models.py:27-28 | a new enrolment has progress 0 and is not completed |
| CoursesModels.Ratings | courses/models.py:17-19 | empty iff the course has no reviews, and each value is the rating of one of its reviews |
| CoursesModels.RatingsAppend | courses/models.py:17-19 | a review added to the table adds its rating at the end exactly when it is about the course, which with `Ratings`' emptiness clause fixes the ratings of every table in table order |
| CoursesModels.AverageRating | courses/models.py:16-20 | None iff the course has no reviews; otherwise the arithmetic mean of their ratings |
| CoursesModels.AverageWithinRatingRange | courses/models.py:19 | when every rating is in 1..5, so is the average |
| CoursesViews.CoursePermissions | courses/views.py:42-51 | create: [IsAuthenticated, IsInstructor]; update, partial_update and destroy add IsCourseOwner; enrolment actions: [IsAuthenticated]; everything else: [AllowAny] |
| CoursesViews.LessonPermissions | courses/views.py:106-111 | every lesson action needs authentication; writes also need IsInstructor |
| CoursesViews.CourseWritesNeedTheOwner | courses/views.py:42-46 | the permission table composed with `IsInstructor` and `IsCourseOwner` (courses/permissions.py:4-12): creating a course passes iff the requester is an instructor; an unsafe write passes iff the requester is the instructor who owns the course |
| CoursesViews.EnrollmentsKeysDistinct | courses/views.py:56 | two users never share a "user_enrollments_{id}" key |
| CoursesViews.EnrollmentsResponse | courses/views.py:54-65 | a hit returns the cached data and leaves the cache alone; a miss returns exactly the user's enrolments and stores them under the user's key for 15 minutes |
| CoursesViews.ListEnrollments | courses/views.py:54-65 | the response and the new cache are `EnrollmentsResponse` of the old cache |
| CoursesViews.EnrollmentsServedFromCache | courses/views.py:57-60 | once a response is cached, the next call returns it unchanged, whatever the enrolments are then |
| CoursesViews.RetrieveEnrollment | courses/views.py:68-74 | 404 iff the requester has no enrolment in that course; otherwise one of their enrolments in it |
| CoursesViews.ListCourses | courses/views.py:76-83 | a cached 'course_list' is returned whatever the filter parameters are; a miss computes the filtered list and stores it for 15 minutes |
| CoursesViews.CachedListIgnoresFilters | courses/views.py:76-83 | a filtered request can be answered with the unfiltered list cached by an earlier request |
| CoursesViews.ListCoursesCached | courses/views.py:76-83 | a filtered request always gets its own filtered list and leaves the cache alone; an unfiltered one is cache-aside |
| CoursesViews.UnfilteredListIsAllCourses | courses/views.py:37 | with no filter parameter, the list is the whole course table in table order |
| CoursesViews.Annotate | courses/views.py:138-139 | each course is paired with its number of enrolments |
| CoursesViews.SortByCount | courses/views.py:140 | a permutation of its input in non-increasing enrolment count |
| CoursesViews.PopularCourses | courses/views.py:137-143 | every course exactly once, ordered by non-increasing enrolment count |

## Left out

- Email delivery (`send_mail`, `send_verification_email`, `send_success_email`) and the `print` lines are not modelled. Whether a send raises is a parameter wherever a failure changes the answer or the state: the expiry task, email verification and registration.
- Celery dispatch (`.delay`) is modelled as recording the coupon id in `scheduled`. `send_order_confirmation_email` is not modelled because it is only an email.
- Cache time-to-live is not modelled. The timeout is stored with each entry, but an entry never expires by itself; "expired" means "absent".
- Floats are not modelled. `Avg` is the exact mean, `Enrollment.progress` is a real, and the float balance serializer is left out.
- Concurrency and transactions are not modelled. The check-then-debit in `place_order` has no race in a sequential model.
- Unseen definitions are modelled as follows:
  - `Coupon.is_valid` and `check_token` are parameters.
  - `subtract_balance` is taken to be `balance := balance − amount`.
  - `AccountBalance` is one row per user, with the second row refused.
  - `Course.price`, `Coupon` and `CustomUser.is_verified` are fields.
  - New coupons start with `notified` false; new users are neither verified nor staff.
  - A course created by the serializer gets price 0, its default.
- Framework internals are not modelled: DRF field validation and parsing, JWT issue (`super().validate`), password hashing (a `Hashed` wrapper), and queryset construction. Case folding in `icontains` covers ASCII letters only.
- The two order debit paths (`OrderService.place_order` and `Order.save`) are modelled separately and not composed: the service writes `amount`/`tax_amount` rows, and the model declares a `price` row.
- `OrdersService.ValidateCoupon`: the below-minimum error's text formats the minimum with two decimals; the model carries the minimum as a number.
- `OrderService` is modelled as a value built by `NewOrderService`, not as a class. Its three fields are set once in the constructor and never change.
- `CoursesSerializers.UpdateCourse`: works on the stored row with the instance's id. Other in-memory aliases of the instance are not modelled.
- `LessonViewSet.get_queryset` and `perform_create` are not modelled. Only the lesson permission table belongs to the rules modelled here.
- `CoursesViews.PopularCourses`: ties in enrolment count keep table order. The database leaves that order unspecified.
- Course and serializer output formats (the serialized JSON) are not modelled. Responses carry the rows.

## Findings

| source | as written | input that shows it | evidently intended | confidence | as-written member | corrected member |
|---|---|---|---|---|---|---|
| courses/views.py:76-83 | `list` caches its response under the single key 'course_list' and returns any cached value before the filters run, so the filter parameters of later requests are ignored for 15 minutes | an unfiltered request caches [c] while c has no reviews; then a request with min_rating=1 gets [c], though its filtered list is [] | only the unfiltered list is served from the cache; a filtered request always gets its own filtered list | not executed; medium | CoursesViews.ListCourses, CoursesViews.CachedListIgnoresFilters | CoursesViews.ListCoursesCached |

=== FILE: category_serializers.dfy ===
/**
 * categories/serializers.py: `to_internal_value` of the category and tag
 * serializers, which return an existing row when the submitted name is
 * taken and otherwise fall through to ordinary field parsing. That parsing
 * is not part of this model: falling through yields the submitted fields.
 */
module CategoriesSerializers {
  import opened Wrappers
  import opened Entities
  import opened Query

  /** A submitted JSON value: an object, or anything else. */
  datatype Payload = Dict(fields: map<string, string>) | NotDict

  /** What `to_internal_value` produces: an existing row, or the fields handed to ordinary parsing. */
  datatype Internal<T> = Existing(row: T) | Parsed(fields: map<string, string>)

  datatype InternalError =
    | NameRequired      // {"name": "This field is required."}
    | InvalidFormat     // "Invalid data format for Tag."
    | MultipleMatches   // `objects.get(name=...)` found several rows (not caught)

  /** `data.get('name')`. */
  function NameOf(fields: map<string, string>): Option<string> {
    if "name" in fields then Some(fields["name"]) else None
  }

  predicate CategoryNamed(c: Category, name: Option<string>) {
    name.Some? && c.name == name.value
  }

  predicate TagNamed(t: Tag, name: string) {
    t.name == name
  }

  /**
   * `CategorySerializer.to_internal_value`: the category with the submitted
   * name if there is one, else ordinary parsing of the data.
   */
  function CategoryToInternal(categories: seq<Category>, fields: map<string, string>)
    : (r: Result<Internal<Category>, InternalError>)
    ensures r.Ok? && r.value.Existing? ==>
      r.value.row in categories && NameOf(fields) == Some(r.value.row.name)
    ensures (forall c :: c in categories ==> !CategoryNamed(c, NameOf(fields))) <==> r == Ok(Parsed(fields))
    ensures r.Err? <==> |Filter(categories, (c: Category) => CategoryNamed(c, NameOf(fields)))| >= 2
  {
    match Get(categories, (c: Category) => CategoryNamed(c, NameOf(fields)))
    case Found(category) => Ok(Existing(category))
    case DoesNotExist => Ok(Parsed(fields))
    case MultipleObjectsReturned => Err(MultipleMatches)
  }

  /**
   * `TagSerializer.to_internal_value`: the data must be an object with a
   * non-empty name; the tag with that name if there is one, else ordinary
   * parsing.
   */
  function TagToInternal(tags: seq<Tag>, data: Payload): (r: Result<Internal<Tag>, InternalError>)
    ensures data.NotDict? ==> r == Err(InvalidFormat)
    ensures data.Dict? && (NameOf(data.fields).None? || NameOf(data.fields) == Some("")) ==> r == Err(NameRequired)
    ensures r.Ok? ==> data.Dict? && NameOf(data.fields).Some? && NameOf(data.fields).value != ""
    ensures r.Ok? && r.value.Existing? ==> r.value.row in tags && NameOf(data.fields) == Some(r.value.row.name)
    ensures r.Ok? && r.value.Parsed? ==>
      r.value.fields == data.fields && forall t :: t in tags ==> !TagNamed(t, NameOf(data.fields).value)
  {
    match data
    case NotDict => Err(InvalidFormat)
    case Dict(fields) =>
      var name := NameOf(fields);
      if name.None? || name.value == "" then Err(NameRequired)
      else
        match Get(tags, (t: Tag) => TagNamed(t, name.value))
        case Found(tag) => Ok(Existing(tag))
        case DoesNotExist => Ok(Parsed(fields))
        case MultipleObjectsReturned => Err(MultipleMatches)
  }

  /** A name that is taken by exactly one tag yields that tag, never a new one. */
  lemma ExistingTagIsReused(tags: seq<Tag>, k: nat, fields: map<string, string>)
    requires k < |tags| && NameOf(fields) == Some(tags[k].name) && tags[k].name != ""
    requires forall j :: 0 <= j < |tags| && j != k ==> tags[j].name != tags[k].name
    ensures TagToInternal(tags, Dict(fields)) == Ok(Existing(tags[k]))
  {
    FilterSingle(tags, (t: Tag) => TagNamed(t, tags[k].name), k);
  }

  /** A name that is taken by exactly one category yields that category, never a new one. */
  lemma ExistingCategoryIsReused(categories: seq<Category>, k: nat, fields: map<string, string>)
    requires k < |categories| && NameOf(fields) == Some(categories[k].name)
    requires forall j :: 0 <= j < |categories| && j != k ==> categories[j].name != categories[k].name
    ensures CategoryToInternal(categories, fields) == Ok(Existing(categories[k]))
  {
    FilterSingle(categories, (c: Category) => CategoryNamed(c, NameOf(fields)), k);
  }
}

=== FILE: category_views.dfy ===
/** categories/views.py: `CategoryViewSet.get_permissions`. */
module CategoriesViews {
  import opened Entities

  /** Reading categories is open to anyone; every other action needs an admin. */
  function CategoryPermissions(action: string): (r: seq<PermissionClass>)
    ensures |r| == 1
    ensures r == [AllowAny] <==> action == "list" || action == "retrieve"
    ensures r == [IsAdminUser] <==> action != "list" && action != "retrieve"
  {
    if action in ["list", "retrieve"] then [AllowAny] else [IsAdminUser]
  }
}

=== FILE: course_filters.dfy ===
/**
 * courses/filters.py: `CourseFilter`, the query-string filters of the course
 * list. Title, category name and instructor username are case-insensitive
 * substring matches; `tags` is a comma-separated list of tag names;
 * `min_rating` keeps courses whose average rating reaches the value.
 */
module CoursesFilters {
  import opened Wrappers
  import opened Entities
  import opened Query
  import opened Text
  import opened CoursesModels

  /** The tags of `c` whose name is one of `names`, as rows of the tag table. */
  function MatchingTags(c: Course, tags: seq<Tag>, names: seq<string>): seq<Tag> {
    Filter(tags, (t: Tag) => t.id in c.tags && t.name in names)
  }

  predicate HasTagNamed(c: Course, tags: seq<Tag>, names: seq<string>) {
    exists t :: t in tags && t.id in c.tags && t.name in names
  }

  function Repeat(c: Course, n: nat): (r: seq<Course>)
    ensures |r| == n && forall x :: x in r ==> x == c
    ensures n > 0 ==> c in r
  {
    if n == 0 then [] else [c] + Repeat(c, n - 1)
  }

  /**
   * `queryset.filter(tags__name__in=names)`: the join yields a course once
   * per matching tag, so a course with several matching tags repeats.
   */
  function JoinRows(qs: seq<Course>, tags: seq<Tag>, names: seq<string>): (r: seq<Course>)
    ensures forall c :: c in r <==> c in qs && HasTagNamed(c, tags, names)
  {
    if |qs| == 0 then []
    else
      var c := qs[0];
      var m := MatchingTags(c, tags, names);
      assert |m| > 0 <==> HasTagNamed(c, tags, names) by {
        if |m| > 0 {
          assert m[0] in m;
        }
        if HasTagNamed(c, tags, names) {
          var t :| t in tags && t.id in c.tags && t.name in names;
          assert t in m;
        }
      }
      assert qs == [c] + qs[1..];
      Repeat(c, |m|) + JoinRows(qs[1..], tags, names)
  }

  /** `filter_tags`: split the value on ',' and keep each course with a tag of one of those names, once. */
  function FilterTags(qs: seq<Course>, tags: seq<Tag>, value: string): (r: seq<Course>)
    ensures forall c :: c in r <==> c in qs && HasTagNamed(c, tags, Split(value, ','))
    ensures NoDuplicates(r)
  {
    Distinct(JoinRows(qs, tags, Split(value, ',')))
  }

  /** `course.average_rating()` is truthy (present and non-zero) and reaches `value`. */
  predicate ReachesRating(reviews: seq<Review>, c: Course, value: real) {
    var avg := AverageRating(reviews, c.id);
    avg.Some? && avg.value != 0.0 && avg.value >= value
  }

  function Ids(cs: seq<Course>): (r: seq<CourseId>)
    ensures forall id :: id in r <==> exists c :: c in cs && c.id == id
  {
    if |cs| == 0 then []
    else
      assert cs == [cs[0]] + cs[1..];
      [cs[0].id] + Ids(cs[1..])
  }

  /**
   * `filter_min_rating`: the ids of the courses whose average reaches the
   * value, then `queryset.filter(id__in=ids)`.
   */
  function FilterMinRating(qs: seq<Course>, reviews: seq<Review>, value: real): (r: seq<Course>)
    ensures forall c :: c in r <==> c in qs && ReachesRating(reviews, c, value)
    ensures multiset(r) <= multiset(qs)
    ensures forall c :: c in r ==> exists rv :: rv in reviews && rv.course == c.id
  {
    var ids := Ids(Filter(qs, (c: Course) => ReachesRating(reviews, c, value)));
    Filter(qs, (c: Course) => c.id in ids)
  }

  /** Title, category name and instructor username filters: `icontains` on the related field. */
  function FilterTitle(qs: seq<Course>, value: string): (r: seq<Course>)
    ensures forall c :: c in r <==> c in qs && IContains(c.title, value)
  {
    Filter(qs, (c: Course) => IContains(c.title, value))
  }

  predicate CategoryMatches(c: Course, categories: seq<Category>, value: string) {
    c.category.Some? && exists k :: k in categories && k.id == c.category.value && IContains(k.name, value)
  }

  function FilterCategory(qs: seq<Course>, categories: seq<Category>, value: string): (r: seq<Course>)
    ensures forall c :: c in r <==> c in qs && CategoryMatches(c, categories, value)
  {
    Filter(qs, (c: Course) => CategoryMatches(c, categories, value))
  }

  predicate InstructorMatches(c: Course, users: seq<User>, value: string) {
    exists u :: u in users && u.id == c.instructor && IContains(u.username, value)
  }

  function FilterInstructor(qs: seq<Course>, users: seq<User>, value: string): (r: seq<Course>)
    ensures forall c :: c in r <==> c in qs && InstructorMatches(c, users, value)
  {
    Filter(qs, (c: Course) => InstructorMatches(c, users, value))
  }

  /**
   * The query-string parameters after django-filter's form cleaning: `None`
   * when a parameter is absent, and text values already stripped of leading
   * and trailing whitespace (so a blank value arrives as "").
   */
  datatype FilterParams = FilterParams(
    title: Option<string>,
    category: Option<string>,
    instructor: Option<string>,
    tags: Option<string>,
    minRating: Option<real>)

  /** A text parameter that is absent or empty leaves the queryset alone. */
  predicate Given(value: Option<string>) {
    value.Some? && value.value != ""
  }

  /** Every given parameter holds for the course. */
  predicate Selected(c: Course, users: seq<User>, categories: seq<Category>, tags: seq<Tag>,
                     reviews: seq<Review>, params: FilterParams) {
    && (Given(params.title) ==> IContains(c.title, params.title.value))
    && (Given(params.category) ==> CategoryMatches(c, categories, params.category.value))
    && (Given(params.instructor) ==> InstructorMatches(c, users, params.instructor.value))
    && (Given(params.tags) ==> HasTagNamed(c, tags, Split(params.tags.value, ',')))
    && (params.minRating.Some? ==> ReachesRating(reviews, c, params.minRating.value))
  }

  /** `CourseFilter(params, queryset).qs`: the declared filters, in order, each only when given. */
  function ApplyFilters(qs: seq<Course>, users: seq<User>, categories: seq<Category>, tags: seq<Tag>,
                        reviews: seq<Review>, params: FilterParams): (r: seq<Course>)
    ensures forall c :: c in r <==> c in qs && Selected(c, users, categories, tags, reviews, params)
  {
    var byTitle := if Given(params.title) then FilterTitle(qs, params.title.value) else qs;
    var byCategory := if Given(params.category) then FilterCategory(byTitle, categories, params.category.value) else byTitle;
    var byInstructor :=
      if Given(params.instructor) then FilterInstructor(byCategory, users, params.instructor.value) else byCategory;
    var byTags := if Given(params.tags) then FilterTags(byInstructor, tags, params.tags.value) else byInstructor;
    if params.minRating.Some? then FilterMinRating(byTags, reviews, params.minRating.value) else byTags
  }
}

=== FILE: course_models.dfy ===
/**
 * courses/models.py: the average rating of a course, and the defaults and
 * uniqueness of enrolments. Django's `Avg` yields a float; the model computes
 * the exact mean.
 */
module CoursesModels {
  import opened Wrappers
  import opened Entities
  import opened Query

  /** A new enrolment: no progress and not completed. */
  function NewEnrollment(user: UserId, course: CourseId): (e: Enrollment)
    ensures e.user == user && e.course == course
    ensures e.progress == 0.0 && !e.completed
  {
    Enrollment(user, course, 0.0, false)
  }

  function Sum(xs: seq<int>): int {
    if |xs| == 0 then 0 else xs[0] + Sum(xs[1..])
  }

  /** The ratings of the reviews of `course`, in table order. */
  function Ratings(reviews: seq<Review>, course: CourseId): (rs: seq<int>)
    ensures |rs| == 0 <==> forall rv :: rv in reviews ==> rv.course != course
    ensures forall k :: 0 <= k < |rs| ==> exists rv :: rv in reviews && rv.course == course && rv.rating == rs[k]
  {
    var own := Filter(reviews, (rv: Review) => rv.course == course);
    assert |own| > 0 ==> own[0] in own;
    assert forall k :: 0 <= k < |own| ==> own[k] in own;
    seq(|own|, k requires 0 <= k < |own| => own[k].rating)
  }

  /**
   * A review added to the table contributes its rating at the end exactly
   * when it is about the course; with the emptiness clause of `Ratings`, this
   * fixes the ratings of every table.
   */
  lemma RatingsAppend(reviews: seq<Review>, rv: Review, course: CourseId)
    ensures Ratings(reviews + [rv], course) ==
      Ratings(reviews, course) + (if rv.course == course then [rv.rating] else [])
  {
    FilterAppend(reviews, rv, (x: Review) => x.course == course);
  }

  /** `Course.average_rating`: `None` without reviews, otherwise the mean rating. */
  function AverageRating(reviews: seq<Review>, course: CourseId): (r: Option<real>)
    ensures r.None? <==> forall rv :: rv in reviews ==> rv.course != course
    ensures r.Some? ==> r.value * |Ratings(reviews, course)| as real == Sum(Ratings(reviews, course)) as real
  {
    var rs := Ratings(reviews, course);
    if |rs| == 0 then None else Some(Sum(rs) as real / |rs| as real)
  }

  lemma {:induction false} SumBounds(xs: seq<int>, lo: int, hi: int)
    requires forall k :: 0 <= k < |xs| ==> lo <= xs[k] <= hi
    ensures lo * |xs| <= Sum(xs) <= hi * |xs|
    decreases |xs|
  {
    if |xs| > 0 {
      SumBounds(xs[1..], lo, hi);
    }
  }

  /** When every rating of the course lies in 1..5, so does its average. */
  lemma AverageWithinRatingRange(reviews: seq<Review>, course: CourseId)
    requires forall rv :: rv in reviews && rv.course == course ==> 1 <= rv.rating <= 5
    ensures AverageRating(reviews, course).Some? ==>
      1.0 <= AverageRating(reviews, course).value <= 5.0
  {
    var rs := Ratings(reviews, course);
    if |rs| > 0 {
      RatingsWithin(reviews, course);
      MeanOfBoundedWithin(rs, 1, 5);
    }
  }

  /** The mean of a non-empty list of values in [lo, hi] lies in [lo, hi]. */
  lemma MeanOfBoundedWithin(xs: seq<int>, lo: int, hi: int)
    requires |xs| > 0
    requires forall k :: 0 <= k < |xs| ==> lo <= xs[k] <= hi
    ensures lo as real <= Sum(xs) as real / |xs| as real <= hi as real
  {
    SumBounds(xs, lo, hi);
    MeanWithin(Sum(xs), |xs|, Sum(xs) as real / |xs| as real, lo, hi);
  }

  lemma RatingsWithin(reviews: seq<Review>, course: CourseId)
    requires forall rv :: rv in reviews && rv.course == course ==> 1 <= rv.rating <= 5
    ensures forall k :: 0 <= k < |Ratings(reviews, course)| ==> 1 <= Ratings(reviews, course)[k] <= 5
  {
    var rs := Ratings(reviews, course);
    forall k | 0 <= k < |rs| ensures 1 <= rs[k] <= 5 {
      var rv :| rv in reviews && rv.course == course && rv.rating == rs[k];
    }
  }

  /** A value whose product with a positive count lies in [lo * n, hi * n] lies in [lo, hi]. */
  lemma MeanWithin(total: int, n: int, mean: real, lo: int, hi: int)
    requires n > 0 && mean * n as real == total as real
    requires lo * n <= total <= hi * n
    ensures lo as real <= mean <= hi as real
  {
    assert (lo * n) as real == lo as real * n as real;
    assert (hi * n) as real == hi as real * n as real;
    assert (mean - lo as real) * n as real >= 0.0;
    assert (hi as real - mean) * n as real >= 0.0;
  }
}

=== FILE: course_permissions.dfy ===
/**
 * courses/permissions.py: `IsInstructor` (role check) and `IsCourseOwner`
 * (read for anyone, write for the course's instructor).
 */
module CoursesPermissions {
  import opened Entities

  /** `IsInstructor.has_permission`: an authenticated user whose role is 'instructor'. */
  predicate HasInstructorRole(requester: Requester) {
    requester.Authenticated? && requester.user.role == Instructor
  }

  /** `IsCourseOwner.has_object_permission`. */
  predicate OwnsCourse(verb: HttpMethod, requester: Requester, course: Course) {
    IsSafeMethod(verb) || IsUser(requester, course.instructor)
  }

  /**
   * The decision reads only the method, the requester and the course's
   * instructor: editing a course's title, category or tags never changes who
   * may write it.
   */
  lemma CourseOwnerDependsOnInstructorOnly(verb: HttpMethod, requester: Requester, a: Course, b: Course)
    requires a.instructor == b.instructor
    ensures OwnsCourse(verb, requester, a) == OwnsCourse(verb, requester, b)
  {
  }
}

=== FILE: course_serializers.dfy ===
/**
 * courses/serializers.py: `CourseSerializer.create` and `update`, which
 * attach the course to its (nested) category and add its tags one by one.
 *
 * The nested category and tag serializers hand over either an existing row
 * or, for a new name, the parsed fields, which these methods cannot store:
 * assigning them as the category raises `ValueError`, adding one as a tag
 * raises `TypeError`. No transaction surrounds the writes, so a failure
 * while adding tags leaves the rows written so far.
 */
module CoursesSerializers {
  import opened Wrappers
  import opened Entities
  import opened Store
  import opened CategoriesSerializers

  /** `Course.price` is not declared in courses/models.py and the serializer never sets it. */
  const UnsetPrice: real := 0.0

  datatype CourseError =
    | UnsavedCategory             // ValueError: the category is not a saved `Category`
    | UnsavedTag                  // TypeError: a tag is not a saved `Tag`
    | MissingField(field: string) // KeyError: `validated_data.pop` of a field a partial update left out

  /** The ids of the saved tags among `tags`. */
  function TagIds(tags: seq<Internal<Tag>>): set<TagId> {
    set t | t in tags && t.Existing? :: t.row.id
  }

  predicate AllSaved(tags: seq<Internal<Tag>>) {
    forall t :: t in tags ==> t.Existing?
  }

  /** The number of leading saved tags: the loop adds these before it fails. */
  function SavedPrefix(tags: seq<Internal<Tag>>): (k: nat)
    ensures k <= |tags|
    ensures forall j :: 0 <= j < k ==> tags[j].Existing?
    ensures k < |tags| ==> tags[k].Parsed?
  {
    if |tags| == 0 || tags[0].Parsed? then 0 else 1 + SavedPrefix(tags[1..])
  }

  lemma {:induction false} SavedPrefixIsFirstParsed(tags: seq<Internal<Tag>>, i: nat)
    requires i <= |tags|
    requires forall j :: 0 <= j < i ==> tags[j].Existing?
    requires i < |tags| ==> tags[i].Parsed?
    ensures SavedPrefix(tags) == i
    decreases i
  {
    if i > 0 {
      SavedPrefixIsFirstParsed(tags[1..], i - 1);
    }
  }

  /** Saving a row that is already stored as it is changes nothing. */
  lemma SaveStoredRow(rows: seq<Course>, row: Course)
    requires forall c :: c in rows && c.id == row.id ==> c == row
    ensures SaveRow(rows, CourseKey, row) == rows
  {
    var r := SaveRow(rows, CourseKey, row);
    forall i | 0 <= i < |rows| ensures r[i] == rows[i] {
      assert rows[i] in rows;
    }
  }

  /** Saving a row whose id only the last row has rewrites the last row. */
  lemma SaveAppendedRow(base: seq<Course>, first: Course, row: Course)
    requires forall c :: c in base ==> c.id != first.id
    requires row.id == first.id
    ensures SaveRow(base + [first], CourseKey, row) == base + [row]
  {
    var r := SaveRow(base + [first], CourseKey, row);
    forall i | 0 <= i < |base| ensures r[i] == base[i] {
      assert base[i] in base;
    }
  }

  /**
   * The `for tag in tags_data: course.tags.add(tag)` loop on a course whose
   * tag set is empty: each saved tag is added and written at once; the first
   * unsaved one stops the loop.
   */
  method AddTags(db: Db, course: Course, tags: seq<Internal<Tag>>) returns (r: Result<Course, CourseError>)
    requires db.Valid()
    requires course.tags == {}
    requires forall c :: c in db.courses && c.id == course.id ==> c == course
    modifies db`courses
    ensures db.Valid()
    ensures var added := course.(tags := TagIds(tags[..SavedPrefix(tags)]));
      && db.courses == SaveRow(old(db.courses), CourseKey, added)
      && (r.Ok? <==> AllSaved(tags))
      && (r.Ok? ==> r.value == added && added.tags == TagIds(tags))
      && (r.Err? ==> r.error == UnsavedTag)
  {
    ghost var table := db.courses;
    SaveStoredRow(table, course);
    var added := course;
    var i := 0;
    while i < |tags|
      invariant 0 <= i <= |tags|
      invariant forall j :: 0 <= j < i ==> tags[j].Existing?
      invariant added == course.(tags := TagIds(tags[..i]))
      invariant db.courses == SaveRow(table, CourseKey, added)
    {
      if tags[i].Parsed? {
        SavedPrefixIsFirstParsed(tags, i);
        KeysIncreasingSameKeys(table, db.courses, CourseKey, db.nextId);
        assert tags[i] in tags;
        return Err(UnsavedTag);
      }
      assert tags[..i + 1] == tags[..i] + [tags[i]];
      added := added.(tags := added.tags + {tags[i].row.id});
      db.courses := SaveRow(db.courses, CourseKey, added);
      i := i + 1;
    }
    assert tags[..i] == tags;
    SavedPrefixIsFirstParsed(tags, i);
    KeysIncreasingSameKeys(table, db.courses, CourseKey, db.nextId);
    r := Ok(added);
  }

  /**
   * `create`: the requester becomes the instructor, the course is inserted
   * with its category, then each tag is added.
   */
  method CreateCourse(db: Db, instructor: UserId, title: string, description: string,
                      category: Internal<Category>, tags: seq<Internal<Tag>>)
    returns (r: Result<Course, CourseError>)
    requires db.Valid()
    modifies db`courses, db`nextId
    ensures db.Valid()
    ensures category.Parsed? ==> r == Err(UnsavedCategory) && db.courses == old(db.courses)
    ensures r.Ok? <==> category.Existing? && AllSaved(tags)
    ensures r.Ok? ==>
      && r.value.instructor == instructor && r.value.title == title && r.value.description == description
      && r.value.category == Some(category.row.id)
      && r.value.tags == TagIds(tags)
      && r.value.id !in (set c | c in old(db.courses) :: c.id)
      && db.courses == old(db.courses) + [r.value]
    ensures category.Existing? && r.Err? ==>
      r.error == UnsavedTag &&
      db.courses == old(db.courses) +
        [Course(old(db.nextId), title, description, instructor, Some(category.row.id),
                TagIds(tags[..SavedPrefix(tags)]), UnsetPrice)]
  {
    if category.Parsed? {
      return Err(UnsavedCategory);
    }
    var course := Course(db.nextId, title, description, instructor, Some(category.row.id), {}, UnsetPrice);
    ghost var before := db.courses;
    KeysIncreasingAppend(db.courses, CourseKey, db.nextId, course);
    KeysIncreasingRaise(db.users, UserKey, db.nextId, db.nextId + 1);
    KeysIncreasingRaise(db.coupons, CouponKey, db.nextId, db.nextId + 1);
    KeysIncreasingRaise(db.reviews, ReviewKey, db.nextId, db.nextId + 1);
    db.courses := db.courses + [course];
    db.nextId := db.nextId + 1;
    r := AddTags(db, course, tags);
    SaveAppendedRow(before, course, course.(tags := TagIds(tags[..SavedPrefix(tags)])));
  }

  /** `validated_data.get(field, current)`. */
  function OrCurrent(value: Option<string>, current: string): string {
    if value.Some? then value.value else current
  }

  /**
   * `update`: pops the category and the tags (a partial update may leave
   * either out), sets the category, keeps the title and description unless
   * new ones are given, saves, clears the tags and adds the submitted ones.
   */
  method UpdateCourse(db: Db, instance: Course, category: Option<Internal<Category>>,
                      title: Option<string>, description: Option<string>, tags: Option<seq<Internal<Tag>>>)
    returns (r: Result<Course, CourseError>)
    requires db.Valid()
    modifies db`courses
    ensures db.Valid()
    ensures category.None? ==> r == Err(MissingField("category")) && db.courses == old(db.courses)
    ensures category.Some? && tags.None? ==> r == Err(MissingField("tags")) && db.courses == old(db.courses)
    ensures category.Some? && category.value.Parsed? && tags.Some? ==>
      r == Err(UnsavedCategory) && db.courses == old(db.courses)
    ensures r.Ok? <==> category.Some? && tags.Some? && category.value.Existing? && AllSaved(tags.value)
    ensures r.Ok? ==>
      && r.value.id == instance.id && r.value.instructor == instance.instructor && r.value.price == instance.price
      && r.value.category == Some(category.value.row.id)
      && r.value.title == OrCurrent(title, instance.title)
      && r.value.description == OrCurrent(description, instance.description)
      && r.value.tags == TagIds(tags.value)
      && db.courses == SaveRow(old(db.courses), CourseKey, r.value)
    ensures category.Some? && category.value.Existing? && tags.Some? && r.Err? ==>
      && r.error == UnsavedTag
      && db.courses == SaveRow(old(db.courses), CourseKey,
           instance.(category := Some(category.value.row.id),
                     title := OrCurrent(title, instance.title),
                     description := OrCurrent(description, instance.description),
                     tags := TagIds(tags.value[..SavedPrefix(tags.value)])))
  {
    if category.None? {
      return Err(MissingField("category"));
    }
    if tags.None? {
      return Err(MissingField("tags"));
    }
    var newCategory := category.value;
    var newTags := tags.value;
    if newCategory.Parsed? {
      return Err(UnsavedCategory);
    }
    var saved := instance.(category := Some(newCategory.row.id),
                           title := OrCurrent(title, instance.title),
                           description := OrCurrent(description, instance.description));
    ghost var before := db.courses;
    db.courses := SaveRow(db.courses, CourseKey, saved);
    var cleared := saved.(tags := {});
    db.courses := SaveRow(db.courses, CourseKey, cleared);
    SaveRowTwice(before, CourseKey, saved, cleared);
    KeysIncreasingSameKeys(before, db.courses, CourseKey, db.nextId);
    r := AddTags(db, cleared, newTags);
    SaveRowTwice(before, CourseKey, cleared, cleared.(tags := TagIds(newTags[..SavedPrefix(newTags)])));
  }
}

=== FILE: course_views.dfy ===
/**
 * courses/views.py: the permission tables of `CourseViewSet` and
 * `LessonViewSet`, the cache-aside `list_enrollments` and `list` actions,
 * `retrieve_enrollment`, and the ordering of `PopularCoursesView`.
 */
module CoursesViews {
  import opened Wrappers
  import opened Entities
  import opened Query
  import opened Store
  import opened Text
  import opened CoursesPermissions
  import opened CoursesFilters

  /** Cached responses live for 15 minutes. */
  const ListTimeout: nat := 900

  // ---------------------------------------------------------------------------
  // Permission tables.

  predicate IsWriteAction(action: string) {
    action in ["update", "partial_update", "destroy"]
  }

  predicate IsEnrollmentAction(action: string) {
    action in ["enroll", "list_enrollments", "retrieve_enrollment"]
  }

  /** `CourseViewSet.get_permissions`. */
  function CoursePermissions(action: string): (r: seq<PermissionClass>)
    ensures IsCourseOwner in r <==> IsWriteAction(action)
    ensures IsInstructor in r <==> action == "create" || IsWriteAction(action)
    ensures IsAuthenticated in r <==> action == "create" || IsWriteAction(action) || IsEnrollmentAction(action)
    ensures r == [AllowAny] <==> action != "create" && !IsWriteAction(action) && !IsEnrollmentAction(action)
  {
    if action == "create" then [IsAuthenticated, IsInstructor]
    else if IsWriteAction(action) then [IsAuthenticated, IsInstructor, IsCourseOwner]
    else if IsEnrollmentAction(action) then [IsAuthenticated]
    else [AllowAny]
  }

  /** `LessonViewSet.get_permissions`: writes need an instructor, everything needs a login. */
  function LessonPermissions(action: string): (r: seq<PermissionClass>)
    ensures IsAuthenticated in r
    ensures IsInstructor in r <==> action == "create" || IsWriteAction(action)
    ensures AllowAny !in r
  {
    if action == "create" || IsWriteAction(action) then [IsAuthenticated, IsInstructor] else [IsAuthenticated]
  }

  /**
   * Whether one permission class lets the request through. The object-level
   * `IsCourseOwner` check is applied to `course` when there is one.
   */
  predicate Passes(p: PermissionClass, requester: Requester, verb: HttpMethod, course: Option<Course>) {
    match p
    case AllowAny => true
    case IsAuthenticated => requester.Authenticated?
    case IsAdminUser => requester.Authenticated? && requester.user.isStaff
    case IsInstructor => HasInstructorRole(requester)
    case IsCourseOwner => course.None? || OwnsCourse(verb, requester, course.value)
  }

  predicate Allowed(ps: seq<PermissionClass>, requester: Requester, verb: HttpMethod, course: Option<Course>) {
    forall p :: p in ps ==> Passes(p, requester, verb, course)
  }

  /** Only an instructor may create a course, and only the course's instructor may change or delete it. */
  lemma CourseWritesNeedTheOwner(action: string, requester: Requester, verb: HttpMethod, course: Course)
    ensures Allowed(CoursePermissions("create"), requester, verb, None) <==> HasInstructorRole(requester)
    ensures IsWriteAction(action) && !IsSafeMethod(verb) ==>
      (Allowed(CoursePermissions(action), requester, verb, Some(course)) <==>
        HasInstructorRole(requester) && requester.user.id == course.instructor)
  {
    if IsWriteAction(action) && !IsSafeMethod(verb) && HasInstructorRole(requester) && requester.user.id == course.instructor {
      var ps := CoursePermissions(action);
      assert ps == [IsAuthenticated, IsInstructor, IsCourseOwner];
      forall p | p in ps ensures Passes(p, requester, verb, Some(course)) {
      }
    }
  }

  // ---------------------------------------------------------------------------
  // `list_enrollments`: cache-aside per user.

  /** `f"user_enrollments_{user.id}"`. */
  function EnrollmentsKey(user: UserId): string {
    "user_enrollments_" + NatToString(user)
  }

  /** Different users never share a cache entry. */
  lemma EnrollmentsKeysDistinct(a: UserId, b: UserId)
    requires a != b
    ensures EnrollmentsKey(a) != EnrollmentsKey(b)
  {
    var n := |"user_enrollments_"|;
    if EnrollmentsKey(a) == EnrollmentsKey(b) {
      assert EnrollmentsKey(a)[n..] == NatToString(a);
      assert EnrollmentsKey(b)[n..] == NatToString(b);
      NatToStringInjective(a, b);
    }
  }

  /** The response of `list_enrollments` and the cache after it. */
  function EnrollmentsResponse(entries: map<string, CacheEntry>, enrollments: seq<Enrollment>, user: UserId)
    : (r: (CacheValue, map<string, CacheEntry>))
    ensures EnrollmentsKey(user) in entries ==> r == (entries[EnrollmentsKey(user)].value, entries)
    ensures EnrollmentsKey(user) !in entries ==>
      && r.0.EnrollmentRows?
      && (forall e :: e in r.0.enrollments <==> e in enrollments && e.user == user)
      && r.1 == entries[EnrollmentsKey(user) := CacheEntry(r.0, ListTimeout)]
  {
    var key := EnrollmentsKey(user);
    if key in entries then (entries[key].value, entries)
    else
      var data := EnrollmentRows(Filter(enrollments, (e: Enrollment) => e.user == user));
      (data, entries[key := CacheEntry(data, ListTimeout)])
  }

  /** `list_enrollments`: a cached value is returned as it is; otherwise the user's enrolments are stored and returned. */
  method ListEnrollments(db: Db, cache: Cache, user: UserId) returns (data: CacheValue)
    modifies cache
    ensures (data, cache.entries) == EnrollmentsResponse(old(cache.entries), db.enrollments, user)
  {
    var key := EnrollmentsKey(user);
    var cached := cache.Get(key);
    if cached.Some? {
      return cached.value;
    }
    data := EnrollmentRows(Filter(db.enrollments, (e: Enrollment) => e.user == user));
    cache.Set(key, data, ListTimeout);
  }

  /**
   * Once a response is cached, later calls return it unchanged and leave the
   * cache alone, whatever happened to the enrolments in between.
   */
  lemma EnrollmentsServedFromCache(entries: map<string, CacheEntry>, first: seq<Enrollment>, later: seq<Enrollment>, user: UserId)
    ensures var (data, after) := EnrollmentsResponse(entries, first, user);
      EnrollmentsResponse(after, later, user) == (data, after)
  {
  }

  // ---------------------------------------------------------------------------
  // `retrieve_enrollment`.

  predicate EnrollmentOf(e: Enrollment, user: UserId, pk: Option<CourseId>) {
    e.user == user && pk.Some? && e.course == pk.value
  }

  /** `retrieve_enrollment`: the requester's enrolment in course `pk`, or 404. */
  function RetrieveEnrollment(enrollments: seq<Enrollment>, user: UserId, pk: Option<CourseId>): (r: Option<Enrollment>)
    ensures r.None? <==> forall e :: e in enrollments ==> !EnrollmentOf(e, user, pk)
    ensures r.Some? ==> r.value in enrollments && r.value.user == user && Some(r.value.course) == pk
  {
    First(enrollments, (e: Enrollment) => EnrollmentOf(e, user, pk))
  }

  // ---------------------------------------------------------------------------
  // `list`: cache-aside under one fixed key.

  const CourseListKey := "course_list"

  /** The filtered course list a request would get without the cache. */
  function FreshList(db_courses: seq<Course>, users: seq<User>, categories: seq<Category>, tags: seq<Tag>,
                     reviews: seq<Review>, params: FilterParams): CacheValue {
    CourseRows(ApplyFilters(db_courses, users, categories, tags, reviews, params))
  }

  /**
   * `list` as written: whatever is cached under 'course_list' is returned,
   * whatever the request's filter parameters are; on a miss the filtered
   * list is stored under that key.
   */
  method ListCourses(db: Db, cache: Cache, params: FilterParams) returns (data: CacheValue)
    modifies cache
    ensures CourseListKey in old(cache.entries) ==>
      data == old(cache.entries)[CourseListKey].value && cache.entries == old(cache.entries)
    ensures CourseListKey !in old(cache.entries) ==>
      && data == FreshList(db.courses, db.users, db.categories, db.tags, db.reviews, params)
      && cache.entries == old(cache.entries)[CourseListKey := CacheEntry(data, ListTimeout)]
  {
    var cached := cache.Get(CourseListKey);
    if cached.Some? {
      return cached.value;
    }
    data := FreshList(db.courses, db.users, db.categories, db.tags, db.reviews, params);
    cache.Set(CourseListKey, data, ListTimeout);
  }

  const NoFilters := FilterParams(None, None, None, None, None)

  /**
   * The list an unfiltered request caches is served to a filtered request:
   * asking for courses rated at least 1 when no course has a review returns
   * every course instead of none.
   */
  lemma CachedListIgnoresFilters(c: Course)
    ensures var entries := map[CourseListKey := CacheEntry(FreshList([c], [], [], [], [], NoFilters), ListTimeout)];
      && entries[CourseListKey].value == CourseRows([c])
      && FreshList([c], [], [], [], [], FilterParams(None, None, None, None, Some(1.0))) == CourseRows([])
  {
    var withRating := FilterParams(None, None, None, None, Some(1.0));
    assert !Selected(c, [], [], [], [], withRating);
    var r := ApplyFilters([c], [], [], [], [], withRating);
    var all := ApplyFilters([c], [], [], [], [], NoFilters);
    assert Selected(c, [], [], [], [], NoFilters);
    assert all == [c];
  }

  /** A request carries no filter parameter that `CourseFilter` would apply. */
  predicate Unfiltered(params: FilterParams) {
    !Given(params.title) && !Given(params.category) && !Given(params.instructor) &&
    !Given(params.tags) && params.minRating.None?
  }

  /**
   * `list` with the cache confined to unfiltered requests: a filtered
   * request is always answered with its own filtered list and does not
   * touch the cache.
   */
  method ListCoursesCached(db: Db, cache: Cache, params: FilterParams) returns (data: CacheValue)
    modifies cache
    ensures !Unfiltered(params) ==>
      data == FreshList(db.courses, db.users, db.categories, db.tags, db.reviews, params) &&
      cache.entries == old(cache.entries)
    ensures Unfiltered(params) && CourseListKey in old(cache.entries) ==>
      data == old(cache.entries)[CourseListKey].value && cache.entries == old(cache.entries)
    ensures Unfiltered(params) && CourseListKey !in old(cache.entries) ==>
      && data == FreshList(db.courses, db.users, db.categories, db.tags, db.reviews, params)
      && cache.entries == old(cache.entries)[CourseListKey := CacheEntry(data, ListTimeout)]
  {
    if !Unfiltered(params) {
      return FreshList(db.courses, db.users, db.categories, db.tags, db.reviews, params);
    }
    data := ListCourses(db, cache, params);
  }

  /** Every unfiltered request computes the same list: the whole course table, in table order. */
  lemma UnfilteredListIsAllCourses(courses: seq<Course>, users: seq<User>, categories: seq<Category>, tags: seq<Tag>,
                                   reviews: seq<Review>, params: FilterParams)
    requires Unfiltered(params)
    ensures FreshList(courses, users, categories, tags, reviews, params) == CourseRows(courses)
  {
  }

  // ---------------------------------------------------------------------------
  // `PopularCoursesView.get`: courses by enrolment count, most enrolled first.

  datatype Ranked = Ranked(course: Course, enrollmentCount: nat)

  function EnrollmentCount(enrollments: seq<Enrollment>, c: Course): nat {
    |Filter(enrollments, (e: Enrollment) => e.course == c.id)|
  }

  /** `annotate(enrollment_count=Count('enrollments'))`. */
  function Annotate(courses: seq<Course>, enrollments: seq<Enrollment>): (r: seq<Ranked>)
    ensures |r| == |courses|
    ensures forall i :: 0 <= i < |r| ==> r[i] == Ranked(courses[i], EnrollmentCount(enrollments, courses[i]))
  {
    seq(|courses|, i requires 0 <= i < |courses| => Ranked(courses[i], EnrollmentCount(enrollments, courses[i])))
  }

  predicate NonIncreasing(rs: seq<Ranked>) {
    forall i, j :: 0 <= i < j < |rs| ==> rs[i].enrollmentCount >= rs[j].enrollmentCount
  }

  /** Puts `x` in front of the first entry whose count does not exceed its own. */
  function Insert(x: Ranked, rs: seq<Ranked>): (r: seq<Ranked>)
    requires NonIncreasing(rs)
    ensures NonIncreasing(r)
    ensures multiset(r) == multiset(rs) + multiset{x}
    ensures |r| == |rs| + 1
    ensures r[0] == x || (|rs| > 0 && r[0] == rs[0])
  {
    if |rs| == 0 || rs[0].enrollmentCount <= x.enrollmentCount then [x] + rs
    else
      assert rs == [rs[0]] + rs[1..];
      var rest := Insert(x, rs[1..]);
      assert rs[0].enrollmentCount >= rest[0].enrollmentCount;
      [rs[0]] + rest
  }

  /** `order_by('-enrollment_count')`; ties keep table order. */
  function SortByCount(rs: seq<Ranked>): (r: seq<Ranked>)
    ensures NonIncreasing(r)
    ensures multiset(r) == multiset(rs)
    ensures |r| == |rs|
  {
    if |rs| == 0 then []
    else
      assert rs == [rs[0]] + rs[1..];
      Insert(rs[0], SortByCount(rs[1..]))
  }

  /** The popular-courses list: every course exactly once, most enrolled first. */
  function PopularCourses(courses: seq<Course>, enrollments: seq<Enrollment>): (r: seq<Ranked>)
    ensures NonIncreasing(r)
    ensures multiset(r) == multiset(Annotate(courses, enrollments))
    ensures |r| == |courses|
  {
    SortByCount(Annotate(courses, enrollments))
  }
}

=== FILE: entities.dfy ===
/**
 * The records of the marketplace: users, courses, coupons, orders,
 * enrolments, reviews, categories and tags, as the ORM tables hold them.
 * Foreign keys are primary keys (`nat`); many-to-many relations are sets of
 * primary keys; money is an exact `real` (the source uses `Decimal`).
 */
module Entities {
  import opened Wrappers

  type UserId = nat
  type CourseId = nat
  type CouponId = nat
  type CategoryId = nat
  type TagId = nat
  type ReviewId = nat

  /** `CustomUser.role`, with the choices 'student' (the default) and 'instructor'. */
  datatype Role = Student | Instructor

  /** A stored password: what `set_password` keeps for a raw password. */
  datatype Password = Hashed(raw: string)

  datatype User = User(
    id: UserId,
    username: string,
    email: string,
    password: Password,
    role: Role,
    isVerified: bool,
    /** `is_staff`, which `IsAdminUser` checks. */
    isStaff: bool)

  /** `request.user`: the anonymous user or an authenticated account. */
  datatype Requester = Anonymous | Authenticated(user: User)

  /** Django compares model instances by primary key; the anonymous user equals no account. */
  predicate IsUser(requester: Requester, id: UserId) {
    requester.Authenticated? && requester.user.id == id
  }

  datatype Course = Course(
    id: CourseId,
    title: string,
    description: string,
    instructor: UserId,
    category: Option<CategoryId>,
    tags: set<TagId>,
    price: real)

  datatype Coupon = Coupon(
    id: CouponId,
    code: string,
    discountPercentage: int,
    validUntil: int,
    isActive: bool,
    minOrderValue: Option<real>,
    notified: bool,
    creator: UserId,
    courses: set<CourseId>)

  /** A row created by the order service: the fields it passes to `Order.objects.create`. */
  datatype PlacedOrder = PlacedOrder(
    user: UserId,
    course: CourseId,
    coupon: Option<CouponId>,
    amount: real,
    taxAmount: real)

  /** `Order.status`: one of the two declared choices. */
  datatype OrderStatus = Pending | Completed

  /** A row saved through `Order.save`, with the fields orders/models.py declares. */
  datatype PricedOrder = PricedOrder(
    user: UserId,
    course: CourseId,
    price: real,
    status: OrderStatus)

  datatype Enrollment = Enrollment(
    user: UserId,
    course: CourseId,
    progress: real,
    completed: bool)

  datatype Review = Review(
    id: ReviewId,
    user: UserId,
    course: CourseId,
    rating: int,
    comment: string)

  datatype Category = Category(
    id: CategoryId,
    name: string,
    description: string,
    parent: Option<CategoryId>)

  datatype Tag = Tag(id: TagId, name: string)

  /** HTTP request methods; GET, HEAD and OPTIONS are the read-only ones. */
  datatype HttpMethod = GET | HEAD | OPTIONS | POST | PUT | PATCH | DELETE

  predicate IsSafeMethod(m: HttpMethod) {
    m == GET || m == HEAD || m == OPTIONS
  }

  /** The DRF permission classes the viewsets choose from. */
  datatype PermissionClass = AllowAny | IsAuthenticated | IsAdminUser | IsInstructor | IsCourseOwner

  /** `unique_together = ('user', 'course')` on enrolments. */
  predicate UniqueEnrollments(es: seq<Enrollment>) {
    forall i, j :: 0 <= i < j < |es| ==> es[i].user != es[j].user || es[i].course != es[j].course
  }

  /** At most one placed order per (user, course). */
  predicate UniqueOrders(os: seq<PlacedOrder>) {
    forall i, j :: 0 <= i < j < |os| ==> os[i].user != os[j].user || os[i].course != os[j].course
  }

  /** `unique_together = ('user', 'course')` on the rows `Order.save` writes. */
  predicate UniquePricedOrders(rows: map<nat, PricedOrder>) {
    forall a, b :: a in rows && b in rows && a != b ==>
      rows[a].user != rows[b].user || rows[a].course != rows[b].course
  }
}

=== FILE: order_calculation.dfy ===
/**
 * orders/services/order_calculation.py: the discount, tax and total of a
 * course price. `Decimal` arithmetic on these magnitudes is exact, so the
 * model computes over `real`.
 */
module OrdersCalculation {

  /** The triple `calculate_final_price` returns. */
  datatype Breakdown = Breakdown(finalPrice: real, taxAmount: real, totalAmount: real)

  /**
   * `calculate_final_price(base_price, discount_percentage=0, tax_percentage=0)`:
   * the discounted price, the tax on the discounted price, and their sum.
   */
  function CalculateFinalPrice(basePrice: real, discountPercentage: int := 0, taxPercentage: int := 0)
    : (r: Breakdown)
    ensures r.finalPrice == basePrice * (100 - discountPercentage) as real / 100.0
    ensures r.taxAmount == r.finalPrice * taxPercentage as real / 100.0
    ensures r.totalAmount == r.finalPrice + r.taxAmount
    ensures r.totalAmount == basePrice * (100 - discountPercentage) as real * (100 + taxPercentage) as real / 10000.0
  {
    var discount := basePrice * (discountPercentage as real / 100.0);
    var finalPrice := basePrice - discount;
    var taxAmount := finalPrice * (taxPercentage as real / 100.0);
    var totalAmount := finalPrice + taxAmount;
    Breakdown(finalPrice, taxAmount, totalAmount)
  }

  /** With the default arguments nothing is discounted and nothing is taxed. */
  lemma DefaultsLeavePriceUnchanged(basePrice: real)
    ensures CalculateFinalPrice(basePrice) == Breakdown(basePrice, 0.0, basePrice)
  {
  }

  /**
   * For a non-negative price and a discount in 0..100 the final price lies
   * between 0 and the base price, and a non-negative tax never lowers the total.
   */
  lemma FinalPriceWithinBase(basePrice: real, discountPercentage: int, taxPercentage: int)
    requires basePrice >= 0.0
    requires 0 <= discountPercentage <= 100
    requires taxPercentage >= 0
    ensures var r := CalculateFinalPrice(basePrice, discountPercentage, taxPercentage);
      0.0 <= r.finalPrice <= basePrice && r.finalPrice <= r.totalAmount
  {
    var r := CalculateFinalPrice(basePrice, discountPercentage, taxPercentage);
    var keep := (100 - discountPercentage) as real / 100.0;
    assert 0.0 <= keep <= 1.0;
    assert r.finalPrice == basePrice * keep;
    assert basePrice * keep <= basePrice * 1.0 by {
      assert basePrice * (1.0 - keep) >= 0.0;
    }
    assert r.taxAmount == r.finalPrice * (taxPercentage as real / 100.0);
    assert r.taxAmount >= 0.0;
  }

  /** A larger discount never yields a larger final price or a larger total. */
  lemma LargerDiscountNeverCostsMore(basePrice: real, d1: int, d2: int, taxPercentage: int)
    requires basePrice >= 0.0
    requires d1 <= d2
    requires taxPercentage >= 0
    ensures CalculateFinalPrice(basePrice, d2, taxPercentage).finalPrice
         <= CalculateFinalPrice(basePrice, d1, taxPercentage).finalPrice
    ensures CalculateFinalPrice(basePrice, d2, taxPercentage).totalAmount
         <= CalculateFinalPrice(basePrice, d1, taxPercentage).totalAmount
  {
    var r1 := CalculateFinalPrice(basePrice, d1, taxPercentage);
    var r2 := CalculateFinalPrice(basePrice, d2, taxPercentage);
    var gap := (d2 - d1) as real / 100.0;
    assert r1.finalPrice - r2.finalPrice == basePrice * gap;
    assert basePrice * gap >= 0.0;
    var factor := (100 + taxPercentage) as real / 100.0;
    assert r1.totalAmount == r1.finalPrice * factor;
    assert r2.totalAmount == r2.finalPrice * factor;
    assert r1.totalAmount - r2.totalAmount == (r1.finalPrice - r2.finalPrice) * factor;
    assert (r1.finalPrice - r2.finalPrice) * factor >= 0.0;
  }
}

=== FILE: order_model.dfy ===
/**
 * orders/models.py: the `Order` model, whose `save` checks the buyer's
 * balance (`clean`) and debits the price the first time the order is saved.
 *
 * This is a second debit path, independent of the order service: the model
 * declares a `price` field, while the service creates rows with `amount` and
 * `tax_amount`. The two are kept apart here (`Db.pricedOrders` and
 * `Db.orders`) and are not composed.
 */
module OrdersModels {
  import opened Wrappers
  import opened Entities
  import opened Store

  datatype SaveError =
    | NoBalance            // the user has no account balance (`user.balance` does not exist)
    | InsufficientBalance  // `clean`: "Insufficient balance to place this order."
    | IntegrityError       // the database refused a second row for the same (user, course)

  /** Some row other than the one at `pk` already holds (user, course). */
  predicate Conflicts(rows: map<nat, PricedOrder>, pk: Option<nat>, user: UserId, course: CourseId) {
    exists k :: k in rows && (pk.None? || k != pk.value) && rows[k].user == user && rows[k].course == course
  }

  /** An `Order` instance, before or after it is saved. */
  class Order {
    var user: UserId
    var course: CourseId
    var price: real
    var status: OrderStatus
    /** The primary key: `None` until the first successful save. */
    var pk: Option<nat>

    /** A new, unsaved order; `status` takes its default, 'pending'. */
    constructor (user: UserId, course: CourseId, price: real)
      ensures this.user == user && this.course == course && this.price == price
      ensures status == Pending && pk.None?
    {
      this.user, this.course, this.price := user, course, price;
      status, pk := Pending, None;
    }

    /** The row this instance writes. */
    function Fields(): PricedOrder
      reads this
    {
      PricedOrder(user, course, price, status)
    }

    /** `clean`: the buyer's balance must cover the price. */
    function Clean(balances: map<UserId, real>): (r: Result<(), SaveError>)
      reads this
      ensures r.Ok? <==> user in balances && balances[user] >= price
      ensures user !in balances ==> r == Err(NoBalance)
    {
      if user !in balances then Err(NoBalance)
      else if balances[user] < price then Err(InsufficientBalance)
      else Ok(())
    }

    /**
     * `save`: runs `clean` first; debits the price only when the order has no
     * primary key yet; then writes the row, which the database refuses when
     * another row already holds the same (user, course). A refused write keeps
     * the debit (no enclosing transaction is modelled).
     */
    method Save(db: Db) returns (r: Result<(), SaveError>)
      requires db.Valid()
      requires pk.Some? ==> pk.value < db.nextId
      modifies this`pk, db`balances, db`pricedOrders, db`nextId
      ensures db.Valid()
      ensures old(Clean(db.balances)).Err? ==>
        r == old(Clean(db.balances)) && db.balances == old(db.balances) &&
        db.pricedOrders == old(db.pricedOrders) && pk == old(pk)
      ensures old(Clean(db.balances)).Ok? && old(pk).None? ==>
        db.balances == old(db.balances)[user := old(db.balances)[user] - price]
      ensures old(pk).Some? ==> db.balances == old(db.balances)
      ensures r == Err(IntegrityError) <==>
        old(Clean(db.balances)).Ok? && Conflicts(old(db.pricedOrders), old(pk), user, course)
      ensures r.Ok? <==>
        old(Clean(db.balances)).Ok? && !Conflicts(old(db.pricedOrders), old(pk), user, course)
      ensures r == Err(IntegrityError) ==> db.pricedOrders == old(db.pricedOrders) && pk == old(pk)
      ensures r.Ok? ==>
        && pk.Some? && pk.value < db.nextId && (old(pk).Some? ==> pk == old(pk))
        && (old(pk).None? ==> pk.value !in old(db.pricedOrders))
        && db.pricedOrders == old(db.pricedOrders)[pk.value := Fields()]
      ensures UniquePricedOrders(old(db.pricedOrders)) ==> UniquePricedOrders(db.pricedOrders)
    {
      var check := Clean(db.balances);
      if check.Err? {
        return check;
      }
      if pk.None? {
        db.SubtractBalance(user, price);
      }
      if Conflicts(db.pricedOrders, pk, user, course) {
        return Err(IntegrityError);
      }
      if pk.None? {
        pk := Some(db.nextId);
        db.nextId := db.nextId + 1;
      }
      db.pricedOrders := db.pricedOrders[pk.value := Fields()];
      r := Ok(());
    }
  }

  /** Saving a new order and then saving it again debits the price exactly once. */
  method SaveTwice(db: Db, order: Order) returns (first: Result<(), SaveError>, second: Result<(), SaveError>)
    requires db.Valid() && order.pk.None?
    requires order.user in db.balances && db.balances[order.user] >= order.price >= 0.0
    requires !Conflicts(db.pricedOrders, None, order.user, order.course)
    modifies order`pk, db`balances, db`pricedOrders, db`nextId
    ensures first.Ok?
    ensures db.balances == old(db.balances)[order.user := old(db.balances)[order.user] - order.price]
  {
    first := order.Save(db);
    second := order.Save(db);
  }
}

=== FILE: order_serializers.dfy ===
/**
 * orders/serializers.py: validation of order requests
 * (`CreateOrderSerializer`) and validation and creation of coupons
 * (`CouponCreateSerializer`).
 */
module OrdersSerializers {
  import opened Wrappers
  import opened Entities
  import opened Query
  import opened Store

  const InvalidCourseTitle := "Invalid course title. The course does not exist."
  const InvalidCouponCode := "Invalid or expired coupon code."

  /** `validate_course_title`: the title must name an existing course; it is returned unchanged. */
  function ValidateCourseTitle(courses: seq<Course>, value: string): (r: Result<string, string>)
    ensures r.Ok? <==> exists c :: c in courses && c.title == value
    ensures r.Ok? ==> r.value == value
    ensures r.Err? ==> r.error == InvalidCourseTitle
  {
    if !Exists(courses, (c: Course) => c.title == value) then Err(InvalidCourseTitle)
    else Ok(value)
  }

  /**
   * `validate_coupon_code`: an absent or blank code passes unchanged; any other
   * code must belong to an active coupon.
   */
  function ValidateCouponCode(coupons: seq<Coupon>, value: Option<string>): (r: Result<Option<string>, string>)
    ensures value.None? || value.value == "" ==> r == Ok(value)
    ensures value.Some? && value.value != "" ==>
      (r.Ok? <==> exists c :: c in coupons && c.code == value.value && c.isActive)
    ensures r.Ok? ==> r.value == value
    ensures r.Err? ==> r.error == InvalidCouponCode
  {
    if value.Some? && value.value != "" &&
       !Exists(coupons, (c: Coupon) => c.code == value.value && c.isActive)
    then Err(InvalidCouponCode)
    else Ok(value)
  }

  /** The data a coupon is created from, after field parsing. */
  datatype CouponData = CouponData(
    code: string,
    discountPercentage: Option<int>,
    validUntil: int,
    isActive: bool,
    minOrderValue: Option<real>,
    courses: Option<seq<Course>>)

  datatype CouponError =
    | NotOwner(title: string)  // "You do not own the course: <title>."
    | DiscountOutOfRange       // "Discount percentage must be between 1 and 100."

  /** `data.get("courses", [])`. */
  function LinkedCourses(data: CouponData): seq<Course> {
    if data.courses.Some? then data.courses.value else []
  }

  /** `data.get("discount_percentage", 0)`. */
  function Discount(data: CouponData): int {
    if data.discountPercentage.Some? then data.discountPercentage.value else 0
  }

  predicate OwnsAll(user: UserId, courses: seq<Course>) {
    forall c :: c in courses ==> c.instructor == user
  }

  /**
   * `CouponCreateSerializer.validate`: every linked course must be taught by
   * the requesting user (the first one that is not is named in the error), and
   * the discount must lie in 1..100; a missing discount counts as 0.
   */
  method ValidateCoupon(user: UserId, data: CouponData) returns (r: Result<CouponData, CouponError>)
    ensures r.Ok? <==> OwnsAll(user, LinkedCourses(data)) && 0 < Discount(data) <= 100
    ensures r.Ok? ==> r.value == data
    ensures !OwnsAll(user, LinkedCourses(data)) ==>
      exists k :: 0 <= k < |LinkedCourses(data)| &&
        LinkedCourses(data)[k].instructor != user &&
        (forall j :: 0 <= j < k ==> LinkedCourses(data)[j].instructor == user) &&
        r == Err(NotOwner(LinkedCourses(data)[k].title))
    ensures OwnsAll(user, LinkedCourses(data)) && !(0 < Discount(data) <= 100) ==> r == Err(DiscountOutOfRange)
  {
    var courses := LinkedCourses(data);
    var i := 0;
    while i < |courses|
      invariant 0 <= i <= |courses|
      invariant forall j :: 0 <= j < i ==> courses[j].instructor == user
    {
      if courses[i].instructor != user {
        return Err(NotOwner(courses[i].title));
      }
      i := i + 1;
    }
    var discount := Discount(data);
    if discount <= 0 || discount > 100 {
      return Err(DiscountOutOfRange);
    }
    return Ok(data);
  }

  function CourseIds(courses: seq<Course>): set<CourseId> {
    set c | c in courses :: c.id
  }

  /**
   * `CouponCreateSerializer.create` on validated data: the requesting user
   * becomes the creator and the coupon's course set is exactly the submitted
   * list. A new coupon has not been notified about.
   */
  method CreateCoupon(db: Db, user: UserId, data: CouponData) returns (coupon: Coupon)
    requires db.Valid()
    requires data.discountPercentage.Some?
    modifies db`coupons, db`nextId
    ensures db.Valid()
    ensures coupon.creator == user
    ensures coupon.courses == CourseIds(LinkedCourses(data))
    ensures coupon.code == data.code && coupon.discountPercentage == data.discountPercentage.value
    ensures coupon.validUntil == data.validUntil && coupon.isActive == data.isActive
    ensures coupon.minOrderValue == data.minOrderValue && !coupon.notified
    ensures coupon.id !in set c | c in old(db.coupons) :: c.id
    ensures db.coupons == old(db.coupons) + [coupon]
  {
    coupon := Coupon(db.nextId, data.code, data.discountPercentage.value, data.validUntil, data.isActive,
                     data.minOrderValue, false, user, CourseIds(LinkedCourses(data)));
    KeysIncreasingAppend(db.coupons, CouponKey, db.nextId, coupon);
    KeysIncreasingRaise(db.users, UserKey, db.nextId, db.nextId + 1);
    KeysIncreasingRaise(db.courses, CourseKey, db.nextId, db.nextId + 1);
    KeysIncreasingRaise(db.reviews, ReviewKey, db.nextId, db.nextId + 1);
    db.coupons := db.coupons + [coupon];
    db.nextId := db.nextId + 1;
  }
}

=== FILE: order_service.dfy ===
/**
 * orders/services/order_service.py: `OrderService`, which checks that a user
 * may buy a course (with an optional coupon), prices it, debits the user's
 * balance and records the order.
 *
 * The service's fields are set once by its constructor and never change, so
 * the service itself is a value; the state it changes is the database.
 * `Coupon.is_valid` is not part of this model and is passed in as `isValid`.
 */
module OrdersService {
  import opened Wrappers
  import opened Entities
  import opened Query
  import opened Store
  import opened OrdersCalculation

  /** Every order is taxed at this percentage. */
  const TaxPercentage: int := 5

  /** What the service raises. */
  datatype OrderError =
    | NotFound                  // get_object_or_404 found no course, or no account balance
    | MultipleCourses           // get_object_or_404 found several courses with that title (MultipleObjectsReturned)
    | OwnCourse                 // "You cannot order your own course."
    | AlreadyOrdered            // "You have already ordered this course."
    | CouponInvalid             // "The coupon is either expired or inactive."
    | BelowMinimum(minimum: real)  // the course price is under the coupon's minimum order value
    | InsufficientBalance       // "Insufficient balance to place this order."

  /** The errors raised as `ValueError`; the other two come from the ORM. */
  predicate IsValueError(e: OrderError) {
    !e.NotFound? && !e.MultipleCourses?
  }

  /** The fields `__init__` sets: the buyer, the course and the coupon (if any). */
  datatype OrderService = OrderService(user: UserId, course: Course, coupon: Option<Coupon>)

  /** `Coupon.objects.filter(code=coupon_code).first() if coupon_code else None`. */
  function CouponFor(coupons: seq<Coupon>, couponCode: Option<string>): (r: Option<Coupon>)
    ensures r.Some? ==> r.value in coupons && couponCode == Some(r.value.code)
    ensures r.Some? ==> exists i :: 0 <= i < |coupons| && coupons[i] == r.value &&
                                    forall j :: 0 <= j < i ==> coupons[j].code != r.value.code
    ensures couponCode.Some? && couponCode.value != "" && (exists c :: c in coupons && c.code == couponCode.value)
            ==> r.Some?
    ensures couponCode.None? || couponCode.value == "" ==> r.None?
  {
    if couponCode.Some? && couponCode.value != "" then
      First(coupons, (c: Coupon) => c.code == couponCode.value)
    else None
  }

  /** `coupon.min_order_value` is truthy: present and non-zero. */
  predicate MinimumApplies(minOrderValue: Option<real>) {
    minOrderValue.Some? && minOrderValue.value != 0.0
  }

  /** `validate_coupon`: the coupon must be valid and the course price must reach its minimum. */
  function ValidateCoupon(course: Course, coupon: Coupon, isValid: Coupon -> bool): (r: Result<(), OrderError>)
    ensures r.Ok? <==> isValid(coupon) && !(MinimumApplies(coupon.minOrderValue) && course.price < coupon.minOrderValue.value)
    ensures !isValid(coupon) ==> r == Err(CouponInvalid)
    ensures r.Err? && r.error != CouponInvalid ==> r.error == BelowMinimum(coupon.minOrderValue.value)
  {
    if !isValid(coupon) then Err(CouponInvalid)
    else if MinimumApplies(coupon.minOrderValue) && course.price < coupon.minOrderValue.value then
      Err(BelowMinimum(coupon.minOrderValue.value))
    else Ok(())
  }

  predicate HasOrdered(orders: seq<PlacedOrder>, user: UserId, course: CourseId) {
    Exists(orders, (o: PlacedOrder) => o.user == user && o.course == course)
  }

  predicate Titled(courseTitle: Option<string>, c: Course) {
    courseTitle.Some? && c.title == courseTitle.value
  }

  /**
   * `OrderService(user, course_title, coupon_code)`: looks the course up by
   * title, the coupon by code, then refuses the buyer's own course, a course
   * already ordered, and an unusable coupon, in that order.
   */
  function NewOrderService(
    courses: seq<Course>, coupons: seq<Coupon>, orders: seq<PlacedOrder>,
    user: UserId, courseTitle: Option<string>, couponCode: Option<string>, isValid: Coupon -> bool)
    : (r: Result<OrderService, OrderError>)
    ensures r == Err(NotFound) <==> !Exists(courses, (c: Course) => Titled(courseTitle, c))
    ensures r == Err(MultipleCourses) <==> |Filter(courses, (c: Course) => Titled(courseTitle, c))| >= 2
    ensures r.Ok? ==>
      && r.value.user == user
      && r.value.course in courses && Titled(courseTitle, r.value.course)
      && r.value.course.instructor != user
      && !HasOrdered(orders, user, r.value.course.id)
      && r.value.coupon == CouponFor(coupons, couponCode)
      && (r.value.coupon.Some? ==> ValidateCoupon(r.value.course, r.value.coupon.value, isValid).Ok?)
  {
    match Get(courses, (c: Course) => Titled(courseTitle, c))
    case DoesNotExist => Err(NotFound)
    case MultipleObjectsReturned => Err(MultipleCourses)
    case Found(course) =>
      var coupon := CouponFor(coupons, couponCode);
      if course.instructor == user then Err(OwnCourse)
      else if HasOrdered(orders, user, course.id) then Err(AlreadyOrdered)
      else if coupon.Some? && ValidateCoupon(course, coupon.value, isValid).Err? then
        Err(ValidateCoupon(course, coupon.value, isValid).error)
      else Ok(OrderService(user, course, coupon))
  }

  /** `course` is the only row of `courses` titled `title`. */
  predicate UniqueTitle(courses: seq<Course>, title: string, course: Course) {
    exists i :: 0 <= i < |courses| && courses[i] == course && course.title == title &&
      forall j :: 0 <= j < |courses| && j != i ==> courses[j].title != title
  }

  lemma UniqueTitleIsFound(courses: seq<Course>, title: string, course: Course)
    requires UniqueTitle(courses, title, course)
    ensures Get(courses, (c: Course) => Titled(Some(title), c)) == Found(course)
  {
    var i :| 0 <= i < |courses| && courses[i] == course && course.title == title &&
      forall j :: 0 <= j < |courses| && j != i ==> courses[j].title != title;
    FilterSingle(courses, (c: Course) => Titled(Some(title), c), i);
  }

  /** Buying one's own course is refused. */
  lemma OwnCourseIsRefused(
    courses: seq<Course>, coupons: seq<Coupon>, orders: seq<PlacedOrder>,
    user: UserId, title: string, couponCode: Option<string>, isValid: Coupon -> bool, course: Course)
    requires UniqueTitle(courses, title, course)
    requires course.instructor == user
    ensures NewOrderService(courses, coupons, orders, user, Some(title), couponCode, isValid) == Err(OwnCourse)
  {
    UniqueTitleIsFound(courses, title, course);
  }

  /** Buying a course twice is refused. */
  lemma SecondOrderIsRefused(
    courses: seq<Course>, coupons: seq<Coupon>, orders: seq<PlacedOrder>,
    user: UserId, title: string, couponCode: Option<string>, isValid: Coupon -> bool, course: Course)
    requires UniqueTitle(courses, title, course)
    requires course.instructor != user
    requires HasOrdered(orders, user, course.id)
    ensures NewOrderService(courses, coupons, orders, user, Some(title), couponCode, isValid) == Err(AlreadyOrdered)
  {
    UniqueTitleIsFound(courses, title, course);
  }

  /** A code that matches no coupon means no coupon: no coupon error, and no discount. */
  lemma UnknownCodeMeansNoCoupon(
    courses: seq<Course>, coupons: seq<Coupon>, orders: seq<PlacedOrder>,
    user: UserId, title: string, code: string, isValid: Coupon -> bool, course: Course)
    requires UniqueTitle(courses, title, course)
    requires course.instructor != user && !HasOrdered(orders, user, course.id)
    requires forall c :: c in coupons ==> c.code != code
    ensures NewOrderService(courses, coupons, orders, user, Some(title), Some(code), isValid)
         == Ok(OrderService(user, course, None))
    ensures CalculatePrice(OrderService(user, course, None)).finalPrice == course.price
  {
    UniqueTitleIsFound(courses, title, course);
    assert !Exists(coupons, (c: Coupon) => c.code == code);
  }

  /** A coupon that is not valid is refused. */
  lemma InvalidCouponIsRefused(
    courses: seq<Course>, coupons: seq<Coupon>, orders: seq<PlacedOrder>,
    user: UserId, title: string, code: string, isValid: Coupon -> bool, course: Course, coupon: Coupon)
    requires UniqueTitle(courses, title, course)
    requires course.instructor != user && !HasOrdered(orders, user, course.id)
    requires CouponFor(coupons, Some(code)) == Some(coupon) && !isValid(coupon)
    ensures NewOrderService(courses, coupons, orders, user, Some(title), Some(code), isValid) == Err(CouponInvalid)
  {
    UniqueTitleIsFound(courses, title, course);
  }

  /** A coupon that passes validation is accepted, and the order is priced with its discount. */
  lemma ValidCouponIsAccepted(
    courses: seq<Course>, coupons: seq<Coupon>, orders: seq<PlacedOrder>,
    user: UserId, title: string, code: string, isValid: Coupon -> bool, course: Course, coupon: Coupon)
    requires UniqueTitle(courses, title, course)
    requires course.instructor != user && !HasOrdered(orders, user, course.id)
    requires CouponFor(coupons, Some(code)) == Some(coupon) && ValidateCoupon(course, coupon, isValid).Ok?
    ensures NewOrderService(courses, coupons, orders, user, Some(title), Some(code), isValid)
         == Ok(OrderService(user, course, Some(coupon)))
    ensures CalculatePrice(OrderService(user, course, Some(coupon))).finalPrice
         == course.price * (100 - coupon.discountPercentage) as real / 100.0
  {
    UniqueTitleIsFound(courses, title, course);
  }

  /**
   * The minimum order value is inclusive: a course priced exactly at the
   * minimum passes, one priced below it is refused.
   */
  lemma MinimumOrderValueIsInclusive(course: Course, coupon: Coupon, isValid: Coupon -> bool)
    requires isValid(coupon) && MinimumApplies(coupon.minOrderValue)
    ensures course.price == coupon.minOrderValue.value ==> ValidateCoupon(course, coupon, isValid).Ok?
    ensures course.price < coupon.minOrderValue.value ==>
      ValidateCoupon(course, coupon, isValid) == Err(BelowMinimum(coupon.minOrderValue.value))
  {
  }

  /** The discount the order gets: the coupon's percentage, or 0 without a coupon. */
  function DiscountOf(svc: OrderService): int {
    if svc.coupon.Some? then svc.coupon.value.discountPercentage else 0
  }

  /** `calculate_price`: the coupon's discount (0 without one) and a 5% tax. */
  function CalculatePrice(svc: OrderService): (r: Breakdown)
    ensures r.finalPrice == svc.course.price * (100 - DiscountOf(svc)) as real / 100.0
    ensures r.taxAmount == r.finalPrice * 0.05
    ensures r.totalAmount == r.finalPrice * 1.05
    ensures svc.coupon.None? ==> r.finalPrice == svc.course.price
  {
    CalculateFinalPrice(svc.course.price, DiscountOf(svc), TaxPercentage)
  }

  function CouponIdOf(coupon: Option<Coupon>): Option<CouponId> {
    if coupon.Some? then Some(coupon.value.id) else None
  }

  /** The order row `place_order` creates for a service. */
  function OrderRow(svc: OrderService): (o: PlacedOrder)
    ensures o.user == svc.user && o.course == svc.course.id
    ensures o.amount == CalculatePrice(svc).finalPrice && o.taxAmount == CalculatePrice(svc).taxAmount
  {
    var price := CalculatePrice(svc);
    PlacedOrder(svc.user, svc.course.id, CouponIdOf(svc.coupon), price.finalPrice, price.taxAmount)
  }

  /**
   * `place_order`: refuses when the user has no account balance or the balance
   * is below the total; otherwise debits exactly the total and records the order.
   */
  method PlaceOrder(db: Db, svc: OrderService) returns (r: Result<PlacedOrder, OrderError>)
    modifies db`balances, db`orders
    ensures svc.user !in old(db.balances) ==> r == Err(NotFound)
    ensures svc.user in old(db.balances) && old(db.balances)[svc.user] < CalculatePrice(svc).totalAmount
            ==> r == Err(InsufficientBalance)
    ensures r.Err? ==> db.balances == old(db.balances) && db.orders == old(db.orders)
    ensures r.Ok? <==> svc.user in old(db.balances) && old(db.balances)[svc.user] >= CalculatePrice(svc).totalAmount
    ensures r.Ok? ==>
      && r.value == OrderRow(svc)
      && db.balances == old(db.balances)[svc.user := old(db.balances)[svc.user] - CalculatePrice(svc).totalAmount]
      && db.balances[svc.user] >= 0.0
      && db.orders == old(db.orders) + [r.value]
  {
    var price := CalculatePrice(svc);
    if svc.user !in db.balances {
      return Err(NotFound);
    }
    if db.balances[svc.user] < price.totalAmount {
      return Err(InsufficientBalance);
    }
    db.SubtractBalance(svc.user, price.totalAmount);
    var order := OrderRow(svc);
    db.orders := db.orders + [order];
    r := Ok(order);
  }
}

=== FILE: order_signals.dfy ===
/**
 * orders/signals.py: the `order_success` receiver, which enrols the buyer in
 * the purchased course unless the enrolment already exists. The `print`
 * lines that report either case are not modelled.
 */
module OrdersSignals {
  import opened Wrappers
  import opened Entities
  import opened Query
  import opened Store
  import opened CoursesModels

  predicate IsEnrolled(es: seq<Enrollment>, user: UserId, course: CourseId) {
    Exists(es, (e: Enrollment) => e.user == user && e.course == course)
  }

  /**
   * The enrolment table after the receiver ran with the `user` and `course`
   * keyword arguments (`None` when a keyword is missing).
   */
  function AfterOrder(es: seq<Enrollment>, user: Option<UserId>, course: Option<CourseId>): (r: seq<Enrollment>)
    ensures user.None? || course.None? ==> r == es
    ensures user.Some? && course.Some? && IsEnrolled(es, user.value, course.value) ==> r == es
    ensures user.Some? && course.Some? && !IsEnrolled(es, user.value, course.value) ==>
      r == es + [NewEnrollment(user.value, course.value)]
    ensures forall e :: e in es ==> e in r
    ensures forall e :: e in r && e !in es ==> user == Some(e.user) && course == Some(e.course)
    ensures user.Some? && course.Some? ==> IsEnrolled(r, user.value, course.value)
  {
    if user.None? || course.None? then es
    else if IsEnrolled(es, user.value, course.value) then es
    else
      var e := NewEnrollment(user.value, course.value);
      assert e in es + [e];
      es + [e]
  }

  /** `enroll_user_after_order`: inserts the enrolment when it is missing, and nothing else. */
  method EnrollUserAfterOrder(db: Db, user: Option<UserId>, course: Option<CourseId>)
    modifies db`enrollments
    ensures db.enrollments == AfterOrder(old(db.enrollments), user, course)
  {
    if user.None? || course.None? {
      return;
    }
    if !Exists(db.enrollments, (e: Enrollment) => e.user == user.value && e.course == course.value) {
      db.enrollments := db.enrollments + [NewEnrollment(user.value, course.value)];
    }
  }

  /** Running the receiver twice with the same arguments leaves the table as running it once. */
  lemma EnrollIsIdempotent(es: seq<Enrollment>, user: Option<UserId>, course: Option<CourseId>)
    ensures AfterOrder(AfterOrder(es, user, course), user, course) == AfterOrder(es, user, course)
  {
  }

  /** The receiver never creates a second enrolment for the same (user, course). */
  lemma EnrollKeepsEnrollmentsUnique(es: seq<Enrollment>, user: Option<UserId>, course: Option<CourseId>)
    requires UniqueEnrollments(es)
    ensures UniqueEnrollments(AfterOrder(es, user, course))
  {
    if user.Some? && course.Some? && !IsEnrolled(es, user.value, course.value) {
      var r := AfterOrder(es, user, course);
      forall i, j | 0 <= i < j < |r| ensures r[i].user != r[j].user || r[i].course != r[j].course {
        if j == |es| {
          assert r[i] == es[i];
          assert es[i] in es;
        }
      }
    }
  }

  /** The table grows by at most one row, and by exactly one when the user was not enrolled. */
  lemma EnrollAddsAtMostOne(es: seq<Enrollment>, user: UserId, course: CourseId)
    ensures |AfterOrder(es, Some(user), Some(course))| == if IsEnrolled(es, user, course) then |es| else |es| + 1
  {
  }
}

=== FILE: order_tasks.dfy ===
/**
 * orders/tasks.py: the periodic scan for coupons about to expire and the
 * per-coupon expiry notification. Times are whole seconds; `now()` is read
 * twice by the scan, so both readings are parameters. Sending mail and
 * `.delay` are not performed: a notification's delivery is a parameter (the
 * error `send_mail` raised, or `None`), and scheduling a task is recording
 * the coupon id in `scheduled`.
 */
module OrdersTasks {
  import opened Wrappers
  import opened Entities
  import opened Query
  import opened Store
  import opened Text

  /** `timedelta(days=2)`, in seconds. */
  const NotificationWindow: int := 172800

  /** The scan's filter: expiring between the two clock readings, active, and not yet notified about. */
  predicate Expiring(c: Coupon, clockAtThreshold: int, clockAtQuery: int) {
    && c.validUntil <= clockAtThreshold + NotificationWindow
    && c.validUntil >= clockAtQuery
    && c.isActive
    && !c.notified
  }

  /** `Coupon.objects.filter(valid_until__lte=..., valid_until__gte=..., is_active=True, notified=False)`. */
  function ExpiringCoupons(coupons: seq<Coupon>, clockAtThreshold: int, clockAtQuery: int): (r: seq<Coupon>)
    ensures forall c :: c in r <==> c in coupons && Expiring(c, clockAtThreshold, clockAtQuery)
  {
    Filter(coupons, (c: Coupon) => Expiring(c, clockAtThreshold, clockAtQuery))
  }

  predicate IdsIncreasing(coupons: seq<Coupon>) {
    forall i, j :: 0 <= i < j < |coupons| ==> coupons[i].id < coupons[j].id
  }

  function ScanMessage(count: nat): string {
    "Found and notified for " + NatToString(count) + " expiring coupons."
  }

  /**
   * `scan_and_notify_expiring_coupons`: schedules one notification per
   * selected coupon and reports how many were selected.
   */
  method ScanAndNotifyExpiringCoupons(coupons: seq<Coupon>, clockAtThreshold: int, clockAtQuery: int)
    returns (scheduled: seq<CouponId>, message: string)
    ensures forall id :: id in scheduled <==>
      exists c :: c in coupons && Expiring(c, clockAtThreshold, clockAtQuery) && c.id == id
    ensures |scheduled| == |ExpiringCoupons(coupons, clockAtThreshold, clockAtQuery)|
    ensures IdsIncreasing(coupons) ==> NoDuplicates(scheduled)
    ensures message == ScanMessage(|scheduled|)
  {
    var expiring := ExpiringCoupons(coupons, clockAtThreshold, clockAtQuery);
    scheduled := [];
    var i := 0;
    while i < |expiring|
      invariant 0 <= i <= |expiring|
      invariant |scheduled| == i
      invariant forall k :: 0 <= k < i ==> scheduled[k] == expiring[k].id
    {
      scheduled := scheduled + [expiring[i].id];
      i := i + 1;
    }
    ScheduledAreSelected(coupons, clockAtThreshold, clockAtQuery, expiring, scheduled);
    ScheduledAreDistinct(coupons, clockAtThreshold, clockAtQuery, expiring, scheduled);
    message := ScanMessage(|expiring|);
  }

  /** The ids of the selected coupons, position by position, are exactly the ids of the coupons the scan selects. */
  lemma ScheduledAreSelected(coupons: seq<Coupon>, clockAtThreshold: int, clockAtQuery: int,
                             expiring: seq<Coupon>, scheduled: seq<CouponId>)
    requires expiring == ExpiringCoupons(coupons, clockAtThreshold, clockAtQuery)
    requires |scheduled| == |expiring|
    requires forall k :: 0 <= k < |expiring| ==> scheduled[k] == expiring[k].id
    ensures forall id :: id in scheduled <==>
      exists c :: c in coupons && Expiring(c, clockAtThreshold, clockAtQuery) && c.id == id
  {
    forall id | id in scheduled
      ensures exists c :: c in coupons && Expiring(c, clockAtThreshold, clockAtQuery) && c.id == id
    {
      var k :| 0 <= k < |scheduled| && scheduled[k] == id;
      assert expiring[k] in expiring;
    }
    forall c | c in coupons && Expiring(c, clockAtThreshold, clockAtQuery) ensures c.id in scheduled {
      var k :| 0 <= k < |expiring| && expiring[k] == c;
      assert scheduled[k] == c.id;
    }
  }

  /** With unique, increasing coupon ids, no coupon is scheduled twice. */
  lemma ScheduledAreDistinct(coupons: seq<Coupon>, clockAtThreshold: int, clockAtQuery: int,
                             expiring: seq<Coupon>, scheduled: seq<CouponId>)
    requires expiring == ExpiringCoupons(coupons, clockAtThreshold, clockAtQuery)
    requires |scheduled| == |expiring|
    requires forall k :: 0 <= k < |expiring| ==> scheduled[k] == expiring[k].id
    ensures IdsIncreasing(coupons) ==> NoDuplicates(scheduled)
  {
    if IdsIncreasing(coupons) {
      FilterKeepsOrder(coupons, (c: Coupon) => Expiring(c, clockAtThreshold, clockAtQuery), (c: Coupon) => c.id);
      assert forall i, j :: 0 <= i < j < |expiring| ==> expiring[i].id < expiring[j].id;
    }
  }

  /** What `send_coupon_expiry_notification` ends with. */
  datatype Outcome =
    | CouponMissing         // Coupon.DoesNotExist
    | Sent                  // mail sent, flag set
    | NotEligible           // inactive or already notified: the task returns None
    | Failed(error: string) // any other exception, returned as its text

  /** The string the task returns, `None` when it falls off the end. */
  function ReturnValue(outcome: Outcome, couponId: CouponId): (r: Option<string>)
    ensures r.None? <==> outcome == NotEligible
  {
    match outcome
    case CouponMissing => Some("Coupon with ID " + NatToString(couponId) + " does not exist.")
    case Sent => Some("Expiry notification sent for Coupon ID: " + NatToString(couponId))
    case NotEligible => None
    case Failed(error) => Some(error)
  }

  predicate HasId(c: Coupon, couponId: CouponId) {
    c.id == couponId
  }

  /** The text of Django's `MultipleObjectsReturned` for `Coupon.objects.get`. */
  function MultipleCouponsMessage(count: nat): string {
    "get() returned more than one Coupon -- it returned " + NatToString(count) + "!"
  }

  /** The outcome of notifying about `couponId`; `mailError` is what `send_mail` raised, if anything. */
  function NotifyOutcome(coupons: seq<Coupon>, couponId: CouponId, mailError: Option<string>): (r: Outcome)
    ensures r == CouponMissing <==> forall c :: c in coupons ==> c.id != couponId
    ensures r == Sent ==>
      mailError.None? && exists c :: c in coupons && c.id == couponId && c.isActive && !c.notified
    ensures r == NotEligible ==> exists c :: c in coupons && c.id == couponId && !(c.isActive && !c.notified)
  {
    match Get(coupons, (c: Coupon) => HasId(c, couponId))
    case DoesNotExist => CouponMissing
    case MultipleObjectsReturned => Failed(MultipleCouponsMessage(|Filter(coupons, (c: Coupon) => HasId(c, couponId))|))
    case Found(coupon) =>
      if coupon.isActive && !coupon.notified then
        if mailError.Some? then Failed(mailError.value) else Sent
      else NotEligible
  }

  /**
   * The only coupon with the id, when active and not yet notified about, is
   * sent; a mail error instead ends the task with the error's text.
   */
  lemma EligibleCouponIsSent(coupons: seq<Coupon>, couponId: CouponId, k: nat, mailError: Option<string>)
    requires k < |coupons| && coupons[k].id == couponId
    requires forall j :: 0 <= j < |coupons| && j != k ==> coupons[j].id != couponId
    requires coupons[k].isActive && !coupons[k].notified
    ensures NotifyOutcome(coupons, couponId, mailError) == if mailError.None? then Sent else Failed(mailError.value)
  {
    FilterSingle(coupons, (c: Coupon) => HasId(c, couponId), k);
  }

  /**
   * The only coupon with the id, when inactive or already notified about, is
   * skipped: no mail is attempted and the task returns `None`.
   */
  lemma IneligibleCouponIsSkipped(coupons: seq<Coupon>, couponId: CouponId, k: nat, mailError: Option<string>)
    requires k < |coupons| && coupons[k].id == couponId
    requires forall j :: 0 <= j < |coupons| && j != k ==> coupons[j].id != couponId
    requires !(coupons[k].isActive && !coupons[k].notified)
    ensures NotifyOutcome(coupons, couponId, mailError) == NotEligible
    ensures ReturnValue(NotifyOutcome(coupons, couponId, mailError), couponId).None?
  {
    FilterSingle(coupons, (c: Coupon) => HasId(c, couponId), k);
  }

  /** The coupon table after `coupon.notified = True; coupon.save()`. */
  function MarkNotified(coupons: seq<Coupon>, couponId: CouponId): (r: seq<Coupon>)
    ensures |r| == |coupons|
    ensures forall i :: 0 <= i < |r| ==> r[i].id == coupons[i].id
    ensures forall i :: 0 <= i < |r| && coupons[i].id == couponId ==> r[i] == coupons[i].(notified := true)
    ensures forall i :: 0 <= i < |r| && coupons[i].id != couponId ==> r[i] == coupons[i]
  {
    seq(|coupons|, i requires 0 <= i < |coupons| =>
      if coupons[i].id == couponId then coupons[i].(notified := true) else coupons[i])
  }

  /**
   * `send_coupon_expiry_notification`: for an active coupon not yet notified
   * about, sends the mail and then sets `notified`; every other path leaves
   * the table alone.
   */
  method SendCouponExpiryNotification(db: Db, couponId: CouponId, mailError: Option<string>)
    returns (outcome: Outcome, result: Option<string>)
    modifies db`coupons
    ensures outcome == NotifyOutcome(old(db.coupons), couponId, mailError)
    ensures result == ReturnValue(outcome, couponId)
    ensures outcome == Sent ==> db.coupons == MarkNotified(old(db.coupons), couponId)
    ensures outcome != Sent ==> db.coupons == old(db.coupons)
  {
    match Get(db.coupons, (c: Coupon) => HasId(c, couponId)) {
      case DoesNotExist =>
        outcome := CouponMissing;
      case MultipleObjectsReturned =>
        outcome := Failed(MultipleCouponsMessage(|Filter(db.coupons, (c: Coupon) => HasId(c, couponId))|));
      case Found(coupon) =>
        if coupon.isActive && !coupon.notified {
          if mailError.Some? {
            outcome := Failed(mailError.value);
          } else {
            db.coupons := MarkNotified(db.coupons, couponId);
            outcome := Sent;
          }
        } else {
          outcome := NotEligible;
        }
    }
    result := ReturnValue(outcome, couponId);
  }

  /** After a notification is sent, every row with that id is marked as notified about. */
  lemma SentMarksCoupon(coupons: seq<Coupon>, couponId: CouponId, mailError: Option<string>)
    requires NotifyOutcome(coupons, couponId, mailError) == Sent
    ensures forall c :: c in MarkNotified(coupons, couponId) && c.id == couponId ==> c.notified
  {
  }

  /** Notifying about the same coupon a second time sends nothing and changes nothing. */
  lemma SecondNotificationIsNoOp(coupons: seq<Coupon>, couponId: CouponId, first: Option<string>, second: Option<string>)
    requires NotifyOutcome(coupons, couponId, first) == Sent
    ensures NotifyOutcome(MarkNotified(coupons, couponId), couponId, second) == NotEligible
  {
    var marked := MarkNotified(coupons, couponId);
    FilterSameCount(coupons, (c: Coupon) => HasId(c, couponId), marked, (c: Coupon) => HasId(c, couponId));
    var lookup := Get(marked, (c: Coupon) => HasId(c, couponId));
    assert lookup.Found?;
    var k :| 0 <= k < |marked| && marked[k] == lookup.row;
    assert marked[k].notified;
  }

  /** A notified coupon is never selected by a later scan. */
  lemma NotifiedCouponIsNotRescanned(coupons: seq<Coupon>, couponId: CouponId, clockAtThreshold: int, clockAtQuery: int)
    ensures forall c ::
      c in ExpiringCoupons(MarkNotified(coupons, couponId), clockAtThreshold, clockAtQuery) ==> c.id != couponId
  {
  }
}

=== FILE: order_views.dfy ===
/**
 * orders/views.py: `OrderViewSet` (serializer choice, per-user queryset and
 * the `create` action that drives the order service) and `CouponViewSet`'s
 * per-creator queryset. Both viewsets require an authenticated requester, so
 * the requester is a user id here.
 */
module OrdersViews {
  import opened Wrappers
  import opened Entities
  import opened Query
  import opened Store
  import opened OrdersService

  datatype SerializerClass = CreateOrderSerializer | OrderSerializer

  /** `get_serializer_class`: the create serializer for 'create' only. */
  function GetSerializerClass(action: string): (r: SerializerClass)
    ensures r == CreateOrderSerializer <==> action == "create"
  {
    if action == "create" then CreateOrderSerializer else OrderSerializer
  }

  /** `OrderViewSet.get_queryset`: the requester's own orders, in table order. */
  function OrderQueryset(orders: seq<PlacedOrder>, requester: UserId): (r: seq<PlacedOrder>)
    ensures forall o :: o in r <==> o in orders && o.user == requester
    ensures multiset(r) <= multiset(orders)
  {
    Filter(orders, (o: PlacedOrder) => o.user == requester)
  }

  /** `CouponViewSet.get_queryset`: the coupons the requester created. */
  function CouponQueryset(coupons: seq<Coupon>, requester: UserId): (r: seq<Coupon>)
    ensures forall c :: c in r <==> c in coupons && c.creator == requester
    ensures multiset(r) <= multiset(coupons)
  {
    Filter(coupons, (c: Coupon) => c.creator == requester)
  }

  /** The responses `create` can end with. */
  datatype CreateResponse =
    | Created(order: PlacedOrder)  // 201 with the serialized order
    | BadRequest(error: OrderError) // 400 {"error": str(e)} for a ValueError
    | NotFoundResponse              // 404 from get_object_or_404 (course or balance)
    | ServerError                   // 500: MultipleObjectsReturned is not caught

  function StatusCode(r: CreateResponse): (code: int)
    ensures code == 201 <==> r.Created?
    ensures code == 400 <==> r.BadRequest?
  {
    match r
    case Created(_) => 201
    case BadRequest(_) => 400
    case NotFoundResponse => 404
    case ServerError => 500
  }

  /** The response for an error the service raised. */
  function ErrorResponse(e: OrderError): (r: CreateResponse)
    ensures r.BadRequest? <==> IsValueError(e)
    ensures r.BadRequest? ==> r.error == e
    ensures e == NotFound <==> r == NotFoundResponse
  {
    if e == NotFound then NotFoundResponse
    else if e == MultipleCourses then ServerError
    else BadRequest(e)
  }

  /**
   * `OrderViewSet.create`: builds the service from `course_title` and
   * `coupon_code`, places the order, and maps each failure to its response.
   * Only a placed order changes the database.
   */
  method Create(db: Db, user: UserId, courseTitle: Option<string>, couponCode: Option<string>, isValid: Coupon -> bool)
    returns (resp: CreateResponse)
    modifies db`balances, db`orders
    ensures var svc := NewOrderService(old(db.courses), old(db.coupons), old(db.orders), user, courseTitle, couponCode, isValid);
      && (svc.Err? ==> resp == ErrorResponse(svc.error))
      && (svc.Ok? ==> (resp.Created? <==>
            user in old(db.balances) && old(db.balances)[user] >= CalculatePrice(svc.value).totalAmount))
      && (svc.Ok? && resp.Created? ==>
            && resp.order == OrderRow(svc.value)
            && db.balances == old(db.balances)[user := old(db.balances)[user] - CalculatePrice(svc.value).totalAmount])
      && (svc.Ok? && !resp.Created? ==>
            resp == ErrorResponse(if user !in old(db.balances) then NotFound else InsufficientBalance))
    ensures !resp.Created? ==> db.balances == old(db.balances) && db.orders == old(db.orders)
    ensures resp.Created? ==> db.orders == old(db.orders) + [resp.order] && resp.order.user == user
    ensures UniqueOrders(old(db.orders)) ==> UniqueOrders(db.orders)
  {
    var built := NewOrderService(db.courses, db.coupons, db.orders, user, courseTitle, couponCode, isValid);
    if built.Err? {
      return ErrorResponse(built.error);
    }
    ghost var before := db.orders;
    var placed := PlaceOrder(db, built.value);
    if placed.Err? {
      return ErrorResponse(placed.error);
    }
    resp := Created(placed.value);
    if UniqueOrders(before) {
      // The service refused a course the user had already ordered.
      forall i, j | 0 <= i < j < |db.orders|
        ensures db.orders[i].user != db.orders[j].user || db.orders[i].course != db.orders[j].course
      {
        if j == |before| {
          assert db.orders[i] in before;
        }
      }
    }
  }
}

=== FILE: query.dfy ===
/**
 * The queryset operations the source relies on, over a table held as a
 * sequence of rows in primary-key order: `filter`, `exists`, `first`, `get`,
 * `distinct` and `order_by`.
 */
module Query {
  import opened Wrappers

  /** `queryset.filter(p)`: the rows satisfying `p`, in table order. */
  function Filter<T(==,!new)>(s: seq<T>, p: T -> bool): (r: seq<T>)
    ensures |r| <= |s|
    ensures forall x :: x in r <==> x in s && p(x)
    ensures multiset(r) <= multiset(s)
  {
    if |s| == 0 then []
    else
      assert s == [s[0]] + s[1..];
      (if p(s[0]) then [s[0]] else []) + Filter(s[1..], p)
  }

  /** `queryset.filter(p).exists()`. */
  predicate Exists<T(==,!new)>(s: seq<T>, p: T -> bool) {
    exists x :: x in s && p(x)
  }

  /** `queryset.filter(p).first()`: the first matching row in primary-key order, or `None`. */
  function First<T(==,!new)>(s: seq<T>, p: T -> bool): (r: Option<T>)
    ensures r.None? <==> !Exists(s, p)
    ensures r.Some? ==> exists i :: 0 <= i < |s| && s[i] == r.value && p(s[i]) &&
                                    forall j :: 0 <= j < i ==> !p(s[j])
  {
    FirstFrom(s, p, 0)
  }

  function FirstFrom<T>(s: seq<T>, p: T -> bool, i: nat): (r: Option<T>)
    requires i <= |s|
    requires forall j :: 0 <= j < i ==> !p(s[j])
    ensures r.None? <==> forall j :: 0 <= j < |s| ==> !p(s[j])
    ensures r.Some? ==> exists k :: i <= k < |s| && s[k] == r.value && p(s[k]) &&
                                    forall j :: 0 <= j < k ==> !p(s[j])
    decreases |s| - i
  {
    if i == |s| then None
    else if p(s[i]) then Some(s[i])
    else FirstFrom(s, p, i + 1)
  }

  /** The three outcomes of `Model.objects.get(...)`. */
  datatype Lookup<T> = DoesNotExist | Found(row: T) | MultipleObjectsReturned

  /** `Model.objects.get(p)`: exactly one matching row, or one of the two errors. */
  function Get<T(==,!new)>(s: seq<T>, p: T -> bool): (r: Lookup<T>)
    ensures r.DoesNotExist? <==> !Exists(s, p)
    ensures r.Found? ==> r.row in s && p(r.row) && |Filter(s, p)| == 1
    ensures r.MultipleObjectsReturned? <==> |Filter(s, p)| >= 2
  {
    var m := Filter(s, p);
    if |m| == 0 then DoesNotExist
    else if |m| == 1 then (assert m[0] in m; Found(m[0]))
    else (assert m[0] in m; MultipleObjectsReturned)
  }

  predicate NoDuplicates<T(==)>(s: seq<T>) {
    forall i, j :: 0 <= i < j < |s| ==> s[i] != s[j]
  }

  /** `queryset.distinct()`: drops every repetition of a row, keeping its first occurrence. */
  function Distinct<T(==,!new)>(s: seq<T>): (r: seq<T>)
    ensures forall x :: x in r <==> x in s
    ensures NoDuplicates(r)
    ensures |r| <= |s|
  {
    if |s| == 0 then []
    else
      var r := Distinct(s[..|s| - 1]);
      assert s == s[..|s| - 1] + [s[|s| - 1]];
      if s[|s| - 1] in r then r else r + [s[|s| - 1]]
  }

  /** Removing repetitions from a sequence that has none changes nothing. */
  lemma {:induction false} DistinctOfDistinct<T(!new)>(s: seq<T>)
    requires NoDuplicates(s)
    ensures Distinct(s) == s
    decreases |s|
  {
    if |s| > 0 {
      var init := s[..|s| - 1];
      DistinctOfDistinct(init);
      assert s[|s| - 1] !in init by {
        forall i | 0 <= i < |init| ensures init[i] != s[|s| - 1] {
          assert s[i] != s[|s| - 1];
        }
      }
      assert s == init + [s[|s| - 1]];
    }
  }

  /** Every value appearing in `p`'s preimage of a filter appears with the same multiplicity. */
  lemma {:induction false} FilterOfNoDuplicates<T(!new)>(s: seq<T>, p: T -> bool)
    requires NoDuplicates(s)
    ensures NoDuplicates(Filter(s, p))
    decreases |s|
  {
    if |s| > 0 {
      FilterOfNoDuplicates(s[1..], p);
      var rest := Filter(s[1..], p);
      assert s[0] !in s[1..] by {
        forall i | 0 <= i < |s[1..]| ensures s[1..][i] != s[0] {
          assert s[i + 1] != s[0];
        }
      }
      assert s[0] !in rest;
    }
  }

  /** A filter that only one position satisfies keeps exactly that row. */
  lemma {:induction false} FilterSingle<T(!new)>(s: seq<T>, p: T -> bool, i: nat)
    requires i < |s| && p(s[i])
    requires forall j :: 0 <= j < |s| && j != i ==> !p(s[j])
    ensures Filter(s, p) == [s[i]]
    decreases |s|
  {
    if i == 0 {
      NoneMatch(s[1..], p);
    } else {
      FilterSingle(s[1..], p, i - 1);
    }
  }

  /** A filter that no row satisfies is empty. */
  lemma {:induction false} NoneMatch<T(!new)>(s: seq<T>, p: T -> bool)
    requires forall j :: 0 <= j < |s| ==> !p(s[j])
    ensures Filter(s, p) == []
    decreases |s|
  {
    if |s| > 0 {
      NoneMatch(s[1..], p);
    }
  }

  /** Filtering keeps the table order: keys increasing along `s` stay increasing along the result. */
  lemma {:induction false} FilterKeepsOrder<T(!new)>(s: seq<T>, p: T -> bool, key: T -> int)
    requires forall i, j :: 0 <= i < j < |s| ==> key(s[i]) < key(s[j])
    ensures forall i, j :: 0 <= i < j < |Filter(s, p)| ==> key(Filter(s, p)[i]) < key(Filter(s, p)[j])
    decreases |s|
  {
    if |s| > 0 {
      var rest := Filter(s[1..], p);
      FilterKeepsOrder(s[1..], p, key);
      if p(s[0]) {
        HeadBelowFilteredTail(s, p, key);
        var r := Filter(s, p);
        assert r == [s[0]] + rest;
        forall i, j | 0 <= i < j < |r| ensures key(r[i]) < key(r[j]) {
          if i == 0 {
            assert rest[j - 1] in rest;
          } else {
            assert key(rest[i - 1]) < key(rest[j - 1]);
          }
        }
      }
    }
  }

  /** The first row's key is below the key of every row the filter keeps from the rest. */
  lemma HeadBelowFilteredTail<T(!new)>(s: seq<T>, p: T -> bool, key: T -> int)
    requires |s| > 0
    requires forall i, j :: 0 <= i < j < |s| ==> key(s[i]) < key(s[j])
    ensures forall x :: x in Filter(s[1..], p) ==> key(s[0]) < key(x)
  {
    forall x | x in Filter(s[1..], p) ensures key(s[0]) < key(x) {
      var k :| 0 <= k < |s[1..]| && s[1..][k] == x;
      assert s[k + 1] == x;
    }
  }

  /** Filtering a table with one more row at the end: that row is kept after the others iff it matches. */
  lemma {:induction false} FilterAppend<T(!new)>(s: seq<T>, x: T, p: T -> bool)
    ensures Filter(s + [x], p) == Filter(s, p) + (if p(x) then [x] else [])
    decreases |s|
  {
    if |s| == 0 {
      assert s + [x] == [x];
      assert [x][1..] == [];
    } else {
      assert (s + [x])[0] == s[0];
      assert (s + [x])[1..] == s[1..] + [x];
      FilterAppend(s[1..], x, p);
    }
  }

  /** Two tables whose rows match position by position yield filters of the same size. */
  lemma {:induction false} FilterSameCount<T(!new), U(!new)>(s: seq<T>, p: T -> bool, t: seq<U>, q: U -> bool)
    requires |s| == |t|
    requires forall i :: 0 <= i < |s| ==> (p(s[i]) <==> q(t[i]))
    ensures |Filter(s, p)| == |Filter(t, q)|
    decreases |s|
  {
    if |s| > 0 {
      FilterSameCount(s[1..], p, t[1..], q);
      assert p(s[0]) <==> q(t[0]);
    }
  }
}

=== FILE: review_permissions.dfy ===
/**
 * reviews/permissions.py: `IsReviewOwner`, the object-level check that lets
 * anyone read a review and only its author change or delete it.
 */
module ReviewsPermissions {
  import opened Entities

  /** `IsReviewOwner.has_object_permission`. */
  predicate IsReviewOwner(verb: HttpMethod, requester: Requester, review: Review) {
    IsSafeMethod(verb) || IsUser(requester, review.user)
  }

  /** The decision reads only the method, the review's author and the requester. */
  lemma ReviewOwnerDependsOnAuthorOnly(verb: HttpMethod, requester: Requester, a: Review, b: Review)
    requires a.user == b.user
    ensures IsReviewOwner(verb, requester, a) == IsReviewOwner(verb, requester, b)
  {
  }
}

=== FILE: review_serializers.dfy ===
/**
 * reviews/serializers.py: `ReviewSerializer`, which checks the rating range,
 * refuses a review by the course's own instructor, and creates the review
 * for the requesting user and the course named in the URL (`course_pk`).
 */
module ReviewsSerializers {
  import opened Wrappers
  import opened Entities
  import opened Query
  import opened Store

  datatype ReviewError =
    | RatingOutOfRange        // "Rating must be between 1 and 5."
    | InstructorReview        // "Instructors cannot write reviews for their own courses."
    | CourseDoesNotExist      // `Course.objects.get(pk=course_pk)` found nothing (not caught)
    | MissingCoursePk         // KeyError: no `course_pk` in the URL

  /** `validate_rating`: ratings 1..5 pass unchanged. */
  function ValidateRating(value: int): (r: Result<int, ReviewError>)
    ensures r.Ok? <==> 1 <= value <= 5
    ensures r.Ok? ==> r.value == value
    ensures r.Err? ==> r.error == RatingOutOfRange
  {
    if value < 1 || value > 5 then Err(RatingOutOfRange) else Ok(value)
  }

  predicate HasPk(c: Course, coursePk: Option<CourseId>) {
    coursePk.Some? && c.id == coursePk.value
  }

  /**
   * `Course.objects.get(pk=course_pk)`. Primary keys are unique, so a lookup
   * by key finds at most one row; the first row with the key stands for it.
   */
  function CourseByPk(courses: seq<Course>, coursePk: Option<CourseId>): (r: Option<Course>)
    ensures r.None? <==> forall c :: c in courses ==> !HasPk(c, coursePk)
    ensures r.Some? ==> r.value in courses && HasPk(r.value, coursePk)
  {
    First(courses, (c: Course) => HasPk(c, coursePk))
  }

  /** What the client submitted, plus the `user`/`course` keywords `save` may pass in. */
  datatype ReviewInput = ReviewInput(rating: int, comment: string, user: Option<UserId>, course: Option<CourseId>)

  /** `validate`: the course in the URL must exist and must not be taught by the requester. */
  function Validate(courses: seq<Course>, requester: UserId, coursePk: Option<CourseId>, data: ReviewInput)
    : (r: Result<ReviewInput, ReviewError>)
    ensures r.Ok? <==> exists c :: c in courses && HasPk(c, coursePk) && c.instructor != requester &&
                                   CourseByPk(courses, coursePk) == Some(c)
    ensures r.Ok? ==> r.value == data
    ensures CourseByPk(courses, coursePk).Some? && CourseByPk(courses, coursePk).value.instructor == requester
            ==> r == Err(InstructorReview)
  {
    match CourseByPk(courses, coursePk)
    case None => Err(CourseDoesNotExist)
    case Some(course) => if course.instructor == requester then Err(InstructorReview) else Ok(data)
  }

  /**
   * `create`: requires `course_pk`, drops any `user` and `course` in the
   * data, and inserts the review for the requester and the URL's course.
   */
  method Create(db: Db, requester: UserId, coursePk: Option<CourseId>, data: ReviewInput)
    returns (r: Result<Review, ReviewError>)
    requires db.Valid()
    modifies db`reviews, db`nextId
    ensures db.Valid()
    ensures coursePk.None? ==> r == Err(MissingCoursePk)
    ensures r.Ok? <==> coursePk.Some? && CourseByPk(old(db.courses), coursePk).Some?
    ensures r.Err? ==> db.reviews == old(db.reviews)
    ensures r.Ok? ==>
      && r.value.user == requester && r.value.course == coursePk.value
      && r.value.rating == data.rating && r.value.comment == data.comment
      && r.value.id !in (set rv | rv in old(db.reviews) :: rv.id)
      && db.reviews == old(db.reviews) + [r.value]
  {
    if coursePk.None? {
      return Err(MissingCoursePk);
    }
    var course := CourseByPk(db.courses, coursePk);
    if course.None? {
      return Err(CourseDoesNotExist);
    }
    var review := Review(db.nextId, requester, course.value.id, data.rating, data.comment);
    KeysIncreasingAppend(db.reviews, ReviewKey, db.nextId, review);
    KeysIncreasingRaise(db.users, UserKey, db.nextId, db.nextId + 1);
    KeysIncreasingRaise(db.courses, CourseKey, db.nextId, db.nextId + 1);
    KeysIncreasingRaise(db.coupons, CouponKey, db.nextId, db.nextId + 1);
    db.reviews := db.reviews + [review];
    db.nextId := db.nextId + 1;
    r := Ok(review);
  }
}

=== FILE: review_views.dfy ===
/**
 * reviews/views.py: `ReviewViewSet`, whose queryset is the reviews of the
 * course in the URL and whose `perform_create` ties a new review to that
 * course and to the requester.
 */
module ReviewsViews {
  import opened Wrappers
  import opened Entities
  import opened Query
  import opened Store
  import opened ReviewsSerializers
  import opened ReviewsPermissions

  /** `IsAuthenticatedOrReadOnly.has_permission`: reads for anyone, everything else after login. */
  predicate AuthenticatedOrReadOnly(verb: HttpMethod, requester: Requester) {
    IsSafeMethod(verb) || requester.Authenticated?
  }

  /**
   * `permission_classes = [IsAuthenticatedOrReadOnly, IsReviewOwner]`: every
   * class must pass, and the object-level `IsReviewOwner` runs only on an
   * existing review (retrieve, update, destroy), not on list or create.
   */
  predicate ReviewAccess(verb: HttpMethod, requester: Requester, review: Option<Review>) {
    AuthenticatedOrReadOnly(verb, requester) && (review.None? || IsReviewOwner(verb, requester, review.value))
  }

  /**
   * Anyone may read reviews; any logged-in user may post one; only the
   * author may change or delete a review.
   */
  lemma ReviewWritesNeedTheAuthor(verb: HttpMethod, requester: Requester, review: Review)
    ensures IsSafeMethod(verb) ==> ReviewAccess(verb, requester, None) && ReviewAccess(verb, requester, Some(review))
    ensures !IsSafeMethod(verb) ==> (ReviewAccess(verb, requester, None) <==> requester.Authenticated?)
    ensures !IsSafeMethod(verb) ==>
      (ReviewAccess(verb, requester, Some(review)) <==> requester.Authenticated? && requester.user.id == review.user)
  {
  }

  /** `get_queryset`: the reviews of the URL's course, none without a `course_pk`. */
  function GetQueryset(reviews: seq<Review>, coursePk: Option<CourseId>): (r: seq<Review>)
    ensures coursePk.None? ==> r == []
    ensures coursePk.Some? ==> forall rv :: rv in r <==> rv in reviews && rv.course == coursePk.value
    ensures multiset(r) <= multiset(reviews)
  {
    if coursePk.Some? then Filter(reviews, (rv: Review) => rv.course == coursePk.value) else []
  }

  /**
   * `perform_create`: requires `course_pk`, looks the course up, and saves the
   * serializer with that course and the requester as `course` and `user`.
   */
  method PerformCreate(db: Db, requester: UserId, coursePk: Option<CourseId>, data: ReviewInput)
    returns (r: Result<Review, ReviewError>)
    requires db.Valid()
    modifies db`reviews, db`nextId
    ensures db.Valid()
    ensures coursePk.None? ==> r == Err(MissingCoursePk)
    ensures r.Ok? <==> coursePk.Some? && CourseByPk(old(db.courses), coursePk).Some?
    ensures r.Err? ==> db.reviews == old(db.reviews)
    ensures r.Ok? ==>
      && r.value.user == requester && r.value.course == coursePk.value
      && db.reviews == old(db.reviews) + [r.value]
      && r.value in GetQueryset(db.reviews, coursePk)
  {
    if coursePk.None? {
      return Err(MissingCoursePk);
    }
    var course := CourseByPk(db.courses, coursePk);
    if course.None? {
      return Err(CourseDoesNotExist);
    }
    r := Create(db, requester, coursePk, data.(user := Some(requester), course := Some(course.value.id)));
    if r.Ok? {
      assert r.value in db.reviews;
    }
  }
}

=== FILE: store.dfy ===
/**
 * The mutable state the core works on: the database (one field per ORM
 * table) and the key/value cache. Clock-driven expiry of cache entries is not
 * modelled: an expired entry is an absent key.
 */
module Store {
  import opened Wrappers
  import opened Entities

  /** Every key of `rows` is below `bound` and the keys strictly increase (primary-key order). */
  ghost predicate KeysIncreasing<T>(rows: seq<T>, key: T -> nat, bound: nat) {
    && (forall i :: 0 <= i < |rows| ==> key(rows[i]) < bound)
    && Ascending(rows, key)
  }

  /** Each key is smaller than the next one. */
  ghost predicate Ascending<T>(rows: seq<T>, key: T -> nat)
    decreases |rows|
  {
    |rows| < 2 || (key(rows[0]) < key(rows[1]) && Ascending(rows[1..], key))
  }

  /** Ascending keys are pairwise increasing. */
  lemma {:induction false} AscendingPairwise<T>(rows: seq<T>, key: T -> nat, i: nat, j: nat)
    requires Ascending(rows, key) && i < j < |rows|
    ensures key(rows[i]) < key(rows[j])
    decreases j
  {
    if i > 0 {
      AscendingPairwise(rows[1..], key, i - 1, j - 1);
    } else if j > 1 {
      AscendingPairwise(rows[1..], key, 0, j - 1);
    }
  }

  /** A row whose key exceeds the last key can be appended. */
  lemma {:induction false} AscendingAppend<T>(rows: seq<T>, key: T -> nat, row: T)
    requires Ascending(rows, key)
    requires |rows| > 0 ==> key(rows[|rows| - 1]) < key(row)
    ensures Ascending(rows + [row], key)
    decreases |rows|
  {
    if |rows| >= 2 {
      assert (rows + [row])[1..] == rows[1..] + [row];
      AscendingAppend(rows[1..], key, row);
    }
  }

  /** Rewriting rows without changing their keys keeps the keys ascending. */
  lemma {:induction false} AscendingSameKeys<T>(rows: seq<T>, rewritten: seq<T>, key: T -> nat)
    requires Ascending(rows, key)
    requires |rewritten| == |rows| && forall i :: 0 <= i < |rows| ==> key(rewritten[i]) == key(rows[i])
    ensures Ascending(rewritten, key)
    decreases |rows|
  {
    if |rows| >= 2 {
      AscendingSameKeys(rows[1..], rewritten[1..], key);
    }
  }

  /** A row whose key is the bound, appended, keeps the keys increasing below the raised bound. */
  lemma KeysIncreasingAppend<T>(rows: seq<T>, key: T -> nat, bound: nat, row: T)
    requires KeysIncreasing(rows, key, bound) && key(row) == bound
    ensures KeysIncreasing(rows + [row], key, bound + 1)
  {
    AscendingAppend(rows, key, row);
  }

  /** Raising the bound keeps the keys below it. */
  lemma KeysIncreasingRaise<T>(rows: seq<T>, key: T -> nat, bound: nat, higher: nat)
    requires KeysIncreasing(rows, key, bound) && bound <= higher
    ensures KeysIncreasing(rows, key, higher)
  {
  }

  /** Rows rewritten in place without changing their keys keep the keys increasing. */
  lemma KeysIncreasingSameKeys<T>(rows: seq<T>, rewritten: seq<T>, key: T -> nat, bound: nat)
    requires KeysIncreasing(rows, key, bound)
    requires |rewritten| == |rows| && forall i :: 0 <= i < |rows| ==> key(rewritten[i]) == key(rows[i])
    ensures KeysIncreasing(rewritten, key, bound)
  {
    AscendingSameKeys(rows, rewritten, key);
  }

  /** The primary keys of the tables. */
  function UserKey(u: User): nat { u.id }
  function CourseKey(c: Course): nat { c.id }
  function CouponKey(c: Coupon): nat { c.id }
  function ReviewKey(r: Review): nat { r.id }

  /**
   * `instance.save()` on a row that already exists: the row with the
   * instance's primary key is replaced by the instance, every other row is kept.
   */
  function SaveRow<T>(rows: seq<T>, key: T -> nat, row: T): (r: seq<T>)
    ensures |r| == |rows|
    ensures forall i :: 0 <= i < |r| ==> key(r[i]) == key(rows[i])
    ensures forall i :: 0 <= i < |r| && key(rows[i]) == key(row) ==> r[i] == row
    ensures forall i :: 0 <= i < |r| && key(rows[i]) != key(row) ==> r[i] == rows[i]
  {
    seq(|rows|, i requires 0 <= i < |rows| => if key(rows[i]) == key(row) then row else rows[i])
  }

  /** Saving twice under the same key leaves what saving the second row once leaves. */
  lemma SaveRowTwice<T>(rows: seq<T>, key: T -> nat, first: T, second: T)
    requires key(first) == key(second)
    ensures SaveRow(SaveRow(rows, key, first), key, second) == SaveRow(rows, key, second)
  {
    var twice := SaveRow(SaveRow(rows, key, first), key, second);
    var once := SaveRow(rows, key, second);
    assert forall i :: 0 <= i < |once| ==> twice[i] == once[i];
  }

  class Db {
    var users: seq<User>
    /** `AccountBalance` rows, one per user (`user.balance`). */
    var balances: map<UserId, real>
    var courses: seq<Course>
    var coupons: seq<Coupon>
    /** Orders created by the order service. */
    var orders: seq<PlacedOrder>
    /** Orders written through `Order.save`, by primary key. */
    var pricedOrders: map<nat, PricedOrder>
    var enrollments: seq<Enrollment>
    var reviews: seq<Review>
    var categories: seq<Category>
    var tags: seq<Tag>
    /** The next primary key the database hands out. */
    var nextId: nat

    /** Tables are in primary-key order and every key was handed out before `nextId`. */
    ghost predicate Valid()
      reads this`users, this`courses, this`coupons, this`reviews, this`pricedOrders, this`nextId
    {
      && KeysIncreasing(users, UserKey, nextId)
      && KeysIncreasing(courses, CourseKey, nextId)
      && KeysIncreasing(coupons, CouponKey, nextId)
      && KeysIncreasing(reviews, ReviewKey, nextId)
      && (forall k :: k in pricedOrders ==> k < nextId)
    }

    /**
     * `AccountBalance.subtract_balance`, whose definition is not part of this
     * model: assumed to be `balance := balance - amount`, with no check of its own.
     */
    method SubtractBalance(user: UserId, amount: real)
      requires user in balances
      modifies this`balances
      ensures balances == old(balances)[user := old(balances)[user] - amount]
    {
      balances := balances[user := balances[user] - amount];
    }
  }

  /** What the source stores in the cache. */
  datatype CacheValue =
    | Text(text: string)
    | Number(number: int)
    | EnrollmentRows(enrollments: seq<Enrollment>)
    | CourseRows(courses: seq<Course>)

  /** A cache entry with the lifetime (seconds) it was stored with. */
  datatype CacheEntry = CacheEntry(value: CacheValue, timeout: nat)

  /** Django's `cache`: `get`, `set` and `delete` over a key/value store. */
  class Cache {
    var entries: map<string, CacheEntry>

    constructor ()
      ensures entries == map[]
    {
      entries := map[];
    }

    /** `cache.get(key)`: the stored value, `None` when the key is absent. */
    function Get(key: string): (v: Option<CacheValue>)
      reads this
      ensures v.Some? <==> key in entries
      ensures v.Some? ==> v.value == entries[key].value
    {
      if key in entries then Some(entries[key].value) else None
    }

    /** `cache.set(key, value, timeout)`: overwrites the key, leaves every other key alone. */
    method Set(key: string, value: CacheValue, timeout: nat)
      modifies this
      ensures entries == old(entries)[key := CacheEntry(value, timeout)]
    {
      entries := entries[key := CacheEntry(value, timeout)];
    }

    /** `cache.delete(key)`. */
    method Delete(key: string)
      modifies this
      ensures entries == old(entries) - {key}
    {
      entries := entries - {key};
    }
  }
}

=== FILE: text.dfy ===
/**
 * Text operations the source performs through Python's string formatting and
 * string methods: decimal rendering of integers (f-strings), `str.split`,
 * `','.join` and the case-insensitive substring test behind `icontains`.
 */
module Text {

  // ---------------------------------------------------------------------------
  // Decimal rendering of natural numbers (`f"{n}"`) and its inverse.

  predicate IsDigit(c: char) {
    '0' <= c <= '9'
  }

  predicate AllDigits(s: string) {
    forall i :: 0 <= i < |s| ==> IsDigit(s[i])
  }

  function DigitChar(d: nat): (c: char)
    requires d < 10
    ensures IsDigit(c)
    ensures c as int - '0' as int == d
  {
    (d + '0' as int) as char
  }

  function DigitValue(c: char): (d: nat)
    requires IsDigit(c)
    ensures d < 10
  {
    c as int - '0' as int
  }

  /** The decimal text of `n`, without sign or leading zeros. */
  function NatToString(n: nat): (s: string)
    ensures 1 <= |s|
    ensures AllDigits(s)
    ensures n > 0 ==> s[0] != '0'
    decreases n
  {
    if n < 10 then [DigitChar(n)] else NatToString(n / 10) + [DigitChar(n % 10)]
  }

  /** The value of a string of decimal digits (Python's `int(s)` on such a string). */
  function ParseNat(s: string): nat
    requires AllDigits(s)
  {
    if |s| == 0 then 0 else 10 * ParseNat(s[..|s| - 1]) + DigitValue(s[|s| - 1])
  }

  /** Reading back the decimal text of `n` gives `n`. */
  lemma {:induction false} ParseNatToString(n: nat)
    ensures ParseNat(NatToString(n)) == n
    decreases n
  {
    var s := NatToString(n);
    if n < 10 {
      assert s[..|s| - 1] == [];
    } else {
      ParseNatToString(n / 10);
      assert s[..|s| - 1] == NatToString(n / 10);
    }
  }

  /** Distinct numbers have distinct decimal texts, so keys built from them never collide. */
  lemma NatToStringInjective(a: nat, b: nat)
    requires NatToString(a) == NatToString(b)
    ensures a == b
  {
    ParseNatToString(a);
    ParseNatToString(b);
  }

  function Pow10(k: nat): (p: nat)
    ensures p >= 1
  {
    if k == 0 then 1 else 10 * Pow10(k - 1)
  }

  /** A number with k + 1 decimal digits is rendered with exactly k + 1 characters. */
  lemma {:induction false} NatToStringLength(n: nat, k: nat)
    requires Pow10(k) <= n < Pow10(k + 1)
    ensures |NatToString(n)| == k + 1
    decreases k
  {
    if k > 0 {
      assert Pow10(k) == 10 * Pow10(k - 1);
      assert Pow10(k + 1) == 10 * Pow10(k);
      assert n >= 10;
      assert Pow10(k - 1) <= n / 10 < Pow10(k);
      NatToStringLength(n / 10, k - 1);
    }
  }

  // ---------------------------------------------------------------------------
  // `str.split(sep)` and `sep.join(parts)` for a one-character separator.

  /**
   * Python's `s.split(sep)`: the pieces between separators, including empty
   * pieces; `"".split(",")` is `[""]`.
   */
  function Split(s: string, sep: char): (parts: seq<string>)
    ensures |parts| >= 1
    ensures forall i :: 0 <= i < |parts| ==> sep !in parts[i]
    decreases |s|
  {
    if |s| == 0 then [""]
    else
      var rest := Split(s[1..], sep);
      if s[0] == sep then [""] + rest else [[s[0]] + rest[0]] + rest[1..]
  }

  /** Python's `sep.join(parts)`. */
  function Join(parts: seq<string>, sep: char): string
  {
    if |parts| == 0 then ""
    else if |parts| == 1 then parts[0]
    else parts[0] + [sep] + Join(parts[1..], sep)
  }

  /** Joining the pieces of a split with the same separator gives back the input. */
  lemma {:induction false} JoinSplit(s: string, sep: char)
    ensures Join(Split(s, sep), sep) == s
    decreases |s|
  {
    if |s| > 0 {
      var rest := Split(s[1..], sep);
      JoinSplit(s[1..], sep);
      assert Join(rest, sep) == s[1..];
      if s[0] == sep {
        assert ([""] + rest)[1..] == rest;
        assert Join([""] + rest, sep) == "" + [sep] + Join(rest, sep);
        assert s == [s[0]] + s[1..];
      } else {
        var parts := [[s[0]] + rest[0]] + rest[1..];
        assert parts[1..] == rest[1..];
        if |rest| == 1 {
          assert Join(rest, sep) == rest[0];
          assert Join(parts, sep) == [s[0]] + rest[0];
        } else {
          assert Join(rest, sep) == rest[0] + [sep] + Join(rest[1..], sep);
          assert Join(parts, sep) == ([s[0]] + rest[0]) + [sep] + Join(rest[1..], sep);
        }
        assert s == [s[0]] + s[1..];
      }
    }
  }

  // ---------------------------------------------------------------------------
  // Case-insensitive containment (`icontains`), ASCII case folding.

  function LowerChar(c: char): char {
    if 'A' <= c <= 'Z' then (c as int + 32) as char else c
  }

  function Lower(s: string): (r: string)
    ensures |r| == |s|
  {
    if |s| == 0 then "" else [LowerChar(s[0])] + Lower(s[1..])
  }

  predicate IsPrefix(p: string, s: string) {
    |p| <= |s| && s[..|p|] == p
  }

  /** `needle` occurs in `haystack` as a contiguous block. */
  predicate IsInfix(needle: string, haystack: string)
    decreases |haystack|
  {
    IsPrefix(needle, haystack) || (|haystack| > 0 && IsInfix(needle, haystack[1..]))
  }

  /** The `icontains` lookup: substring test after folding both sides to lower case. */
  predicate IContains(haystack: string, needle: string) {
    IsInfix(Lower(needle), Lower(haystack))
  }

  /** A needle occurs in a haystack iff it occurs starting at some position. */
  lemma {:induction false} IsInfixAt(needle: string, haystack: string)
    ensures IsInfix(needle, haystack) <==>
      exists k :: 0 <= k <= |haystack| - |needle| && IsPrefix(needle, haystack[k..])
    decreases |haystack|
  {
    if IsPrefix(needle, haystack) {
      assert haystack[0..] == haystack;
    }
    if |haystack| > 0 {
      IsInfixAt(needle, haystack[1..]);
      if IsInfix(needle, haystack[1..]) {
        var k :| 0 <= k <= |haystack| - 1 - |needle| && IsPrefix(needle, haystack[1..][k..]);
        assert haystack[1..][k..] == haystack[k + 1..];
      }
      if exists k :: 0 <= k <= |haystack| - |needle| && IsPrefix(needle, haystack[k..]) {
        var k :| 0 <= k <= |haystack| - |needle| && IsPrefix(needle, haystack[k..]);
        if k > 0 {
          assert haystack[1..][k - 1..] == haystack[k..];
        } else {
          assert haystack[k..] == haystack;
        }
      }
    }
  }

  lemma {:induction false} LowerIdempotent(s: string)
    ensures Lower(Lower(s)) == Lower(s)
    decreases |s|
  {
    if |s| > 0 {
      LowerIdempotent(s[1..]);
      assert Lower(s)[1..] == Lower(s[1..]);
    }
  }

  /** `icontains` does not see case: folding either side first changes nothing. */
  lemma IContainsIgnoresCase(haystack: string, needle: string)
    ensures IContains(Lower(haystack), Lower(needle)) == IContains(haystack, needle)
  {
    LowerIdempotent(haystack);
    LowerIdempotent(needle);
  }

  /** The empty needle is contained in every haystack. */
  lemma IContainsEmpty(haystack: string)
    ensures IContains(haystack, "")
  {
    assert Lower("") == "";
  }
}

=== FILE: user_serializers.dfy ===
/**
 * users/serializers.py: registration validation, the verified-email gate on
 * token issue, the positive-amount check for top-ups, and the two steps of a
 * password reset. Field-level parsing (e-mail syntax, `min_length`, decimal
 * digits) happens before these validators and is not part of this model.
 */
module UsersSerializers {
  import opened Wrappers
  import opened Entities
  import opened Query
  import opened Store

  const ConfirmPasswordField := "confirm_password"
  const PasswordField := "password"

  datatype RegistrationError =
    | PasswordsMustMatch       // "Passwords must match"
    | MissingConfirmPassword   // `attrs.pop('confirm_password')` raised KeyError

  /**
   * `UserRegistrationSerializer.validate`: removes `confirm_password` from
   * the attributes and requires it to equal `password` (a missing password
   * never matches). Through `is_valid()` the declared, required
   * `confirm_password` field is checked first, so a missing one is answered
   * 400 as a field error there; `MissingConfirmPassword` is the `KeyError` of
   * `validate` called on attributes without it.
   */
  function ValidateRegistration(attrs: map<string, string>): (r: Result<map<string, string>, RegistrationError>)
    ensures ConfirmPasswordField !in attrs ==> r == Err(MissingConfirmPassword)
    ensures ConfirmPasswordField in attrs ==>
      (r.Ok? <==> PasswordField in attrs && attrs[PasswordField] == attrs[ConfirmPasswordField])
    ensures r.Err? && ConfirmPasswordField in attrs ==> r.error == PasswordsMustMatch
    ensures r.Ok? ==>
      && ConfirmPasswordField !in r.value
      && r.value.Keys == attrs.Keys - {ConfirmPasswordField}
      && forall k :: k in r.value ==> r.value[k] == attrs[k]
  {
    if ConfirmPasswordField !in attrs then Err(MissingConfirmPassword)
    else
      var rest := attrs - {ConfirmPasswordField};
      if PasswordField !in attrs || attrs[PasswordField] != attrs[ConfirmPasswordField] then Err(PasswordsMustMatch)
      else Ok(rest)
  }

  /** The refresh and access tokens the JWT serializer issues. */
  datatype Tokens = Tokens(refresh: string, access: string)

  const NotVerifiedMessage := "Your email is not verified."

  /**
   * `CustomTokenObtainPairSerializer.validate`: `authenticated` is what the
   * JWT serializer produced (the authenticated user and the tokens, or its
   * error); an unverified user gets no tokens.
   */
  function TokenValidate(authenticated: Result<(User, Tokens), string>): (r: Result<Tokens, string>)
    ensures r.Ok? <==> authenticated.Ok? && authenticated.value.0.isVerified
    ensures r.Ok? ==> r.value == authenticated.value.1
    ensures authenticated.Err? ==> r == Err(authenticated.error)
    ensures authenticated.Ok? && !authenticated.value.0.isVerified ==> r == Err(NotVerifiedMessage)
  {
    if authenticated.Err? then Err(authenticated.error)
    else if !authenticated.value.0.isVerified then Err(NotVerifiedMessage)
    else Ok(authenticated.value.1)
  }

  const NonPositiveAmountMessage := "Amount must be greater than zero."

  /** `AddBalanceSerializer.validate_amount`: a positive amount passes unchanged. */
  function ValidateAmount(value: real): (r: Result<real, string>)
    ensures r.Ok? <==> value > 0.0
    ensures r.Ok? ==> r.value == value
    ensures r.Err? ==> r.error == NonPositiveAmountMessage
  {
    if value <= 0.0 then Err(NonPositiveAmountMessage) else Ok(value)
  }

  const UnknownEmailMessage := "There is no user registered with this email."

  /** `PasswordResetRequestSerializer.validate_email`: some user must have the e-mail. */
  function ValidateResetEmail(users: seq<User>, email: string): (r: Result<string, string>)
    ensures r.Ok? <==> exists u :: u in users && u.email == email
    ensures r.Ok? ==> r.value == email
    ensures r.Err? ==> r.error == UnknownEmailMessage
  {
    if !Exists(users, (u: User) => u.email == email) then Err(UnknownEmailMessage) else Ok(email)
  }

  /** The validated reset request. */
  datatype ResetData = ResetData(token: string, email: string, password: string)

  datatype ResetError =
    | EmailError     // {"email": "Invalid email."}
    | TokenError     // {"token": "Invalid or expired token."}
    | MultipleUsers  // `User.objects.get` found several users with the e-mail (not caught)
    | UserMissing    // `save` found no user with the e-mail (not caught)

  predicate HasEmail(u: User, email: string) {
    u.email == email
  }

  /**
   * `PasswordResetConfirmSerializer.validate`: the e-mail must name exactly
   * one user, then the token must check out for that user. `checkToken`
   * stands for `PasswordResetTokenGenerator.check_token`.
   */
  function ResetConfirmValidate(users: seq<User>, data: ResetData, checkToken: (User, string) -> bool)
    : (r: Result<ResetData, ResetError>)
    ensures (forall u :: u in users ==> u.email != data.email) <==> r == Err(EmailError)
    ensures r == Err(MultipleUsers) <==> |Filter(users, (u: User) => HasEmail(u, data.email))| >= 2
    ensures r.Ok? <==>
      exists u :: Get(users, (u: User) => HasEmail(u, data.email)) == Found(u) && checkToken(u, data.token)
    ensures r == Err(TokenError) <==>
      exists u :: Get(users, (u: User) => HasEmail(u, data.email)) == Found(u) && !checkToken(u, data.token)
    ensures r.Ok? ==> r.value == data
  {
    match Get(users, (u: User) => HasEmail(u, data.email))
    case DoesNotExist => Err(EmailError)
    case MultipleObjectsReturned => Err(MultipleUsers)
    case Found(user) => if !checkToken(user, data.token) then Err(TokenError) else Ok(data)
  }

  /**
   * `PasswordResetConfirmSerializer.save`: looks the user up by e-mail again
   * and replaces the password; no other row and no other field changes.
   */
  method ResetSave(db: Db, data: ResetData) returns (r: Result<User, ResetError>)
    requires db.Valid()
    modifies db`users
    ensures db.Valid()
    ensures r.Ok? <==> |Filter(old(db.users), (u: User) => HasEmail(u, data.email))| == 1
    ensures r.Err? ==> db.users == old(db.users)
    ensures r.Ok? ==>
      && r.value.email == data.email && r.value.password == Hashed(data.password)
      && (exists u :: u in old(db.users) && u.(password := Hashed(data.password)) == r.value)
      && db.users == SaveRow(old(db.users), UserKey, r.value)
  {
    match Get(db.users, (u: User) => HasEmail(u, data.email)) {
      case DoesNotExist =>
        r := Err(UserMissing);
      case MultipleObjectsReturned =>
        r := Err(MultipleUsers);
      case Found(user) =>
        var updated := user.(password := Hashed(data.password));
        KeysIncreasingSameKeys(db.users, SaveRow(db.users, UserKey, updated), UserKey, db.nextId);
        db.users := SaveRow(db.users, UserKey, updated);
        r := Ok(updated);
    }
  }

  /** A request that passed validation is saved: validation and save look the user up the same way. */
  lemma ValidatedResetIsSaved(users: seq<User>, data: ResetData, checkToken: (User, string) -> bool)
    requires ResetConfirmValidate(users, data, checkToken).Ok?
    ensures |Filter(users, (u: User) => HasEmail(u, data.email))| == 1
  {
  }
}

=== FILE: user_signals.dfy ===
/**
 * users/signals.py: the `post_save` receiver for users, which opens an
 * account balance of 50 for a newly created user. `AccountBalance` is not
 * part of this model; it is taken to be one row per user (the source reaches
 * it as `user.balance`), so a second row for the same user is refused by the
 * database.
 */
module UsersSignals {
  import opened Wrappers
  import opened Entities
  import opened Store

  /** The sign-up bonus every new account starts with. */
  const InitialBalance: real := 50.0

  datatype SignalError = IntegrityError

  /** The balance table after the receiver ran for `user` with the given `created` flag. */
  function BalancesAfterSave(balances: map<UserId, real>, user: UserId, created: bool): (r: map<UserId, real>)
    ensures !created ==> r == balances
    ensures created && user in balances ==> r == balances
    ensures created && user !in balances ==> r.Keys == balances.Keys + {user} && r[user] == InitialBalance
    ensures forall u :: u in balances ==> u in r && r[u] == balances[u]
  {
    if created && user !in balances then balances[user := InitialBalance] else balances
  }

  /** `create_account_balance`: inserts the balance row only when the user was just created. */
  method CreateAccountBalance(db: Db, user: UserId, created: bool) returns (r: Result<(), SignalError>)
    modifies db`balances
    ensures r.Err? <==> created && user in old(db.balances)
    ensures db.balances == BalancesAfterSave(old(db.balances), user, created)
  {
    if created {
      if user in db.balances {
        return Err(IntegrityError);
      }
      db.balances := db.balances[user := InitialBalance];
    }
    r := Ok(());
  }

  /** Saving a user again after its creation adds no second balance and changes no amount. */
  lemma OneBalancePerUser(balances: map<UserId, real>, user: UserId)
    requires user !in balances
    ensures var once := BalancesAfterSave(balances, user, true);
      && BalancesAfterSave(once, user, false) == once
      && |once.Keys| == |balances.Keys| + 1
  {
    var once := BalancesAfterSave(balances, user, true);
    assert once.Keys == balances.Keys + {user};
  }
}

=== FILE: user_verification.dfy ===
/**
 * users/utils/verification.py: `generate_verification_code`, which draws a
 * six-digit code and writes two cache entries, user id to code and code to
 * user id, each with a lifetime of 600 seconds.
 */
module UsersVerification {
  import opened Wrappers
  import opened Store
  import opened Text

  /** The lifetime of both entries, in seconds. */
  const CodeTimeout: nat := 600

  /** `f"verification_code_{user_id}"`. */
  function VerificationKey(userId: nat): string {
    "verification_code_" + NatToString(userId)
  }

  /** `f"user_id_for_code_{code}"`. */
  function CodeKey(code: string): string {
    "user_id_for_code_" + code
  }

  /** The two kinds of key never collide, and each kind is one-to-one. */
  lemma KeysAreDistinct(userId: nat, otherId: nat, code: string, otherCode: string)
    ensures VerificationKey(userId) != CodeKey(code)
    ensures VerificationKey(userId) == VerificationKey(otherId) ==> userId == otherId
    ensures CodeKey(code) == CodeKey(otherCode) ==> code == otherCode
  {
    assert VerificationKey(userId)[0] == 'v' && CodeKey(code)[0] == 'u';
    var n := |"verification_code_"|;
    if VerificationKey(userId) == VerificationKey(otherId) {
      assert VerificationKey(userId)[n..] == NatToString(userId);
      assert VerificationKey(otherId)[n..] == NatToString(otherId);
      NatToStringInjective(userId, otherId);
    }
    var m := |"user_id_for_code_"|;
    if CodeKey(code) == CodeKey(otherCode) {
      assert CodeKey(code)[m..] == code;
      assert CodeKey(otherCode)[m..] == otherCode;
    }
  }

  /** The cache after both writes for `userId` and `code`. */
  function WithCode(entries: map<string, CacheEntry>, userId: nat, code: string): (r: map<string, CacheEntry>)
    ensures r.Keys == entries.Keys + {VerificationKey(userId), CodeKey(code)}
    ensures r[VerificationKey(userId)] == CacheEntry(Text(code), CodeTimeout)
    ensures r[CodeKey(code)] == CacheEntry(Number(userId), CodeTimeout)
    ensures forall k :: k in entries && k != VerificationKey(userId) && k != CodeKey(code) ==> r[k] == entries[k]
  {
    KeysAreDistinct(userId, userId, code, code);
    entries[VerificationKey(userId) := CacheEntry(Text(code), CodeTimeout)]
           [CodeKey(code) := CacheEntry(Number(userId), CodeTimeout)]
  }

  /** The codes `randint(100000, 999999)` can render: exactly the six-digit decimal texts without a leading zero. */
  predicate IsSixDigitCode(code: string) {
    |code| == 6 && AllDigits(code) && code[0] != '0'
  }

  /**
   * `generate_verification_code`: the drawn number is any value in
   * 100000..999999; its decimal text is stored under the user's key, the user
   * id under the code's key, and returned.
   */
  method GenerateVerificationCode(cache: Cache, userId: nat) returns (code: string)
    modifies cache
    ensures exists n :: 100000 <= n <= 999999 && code == NatToString(n)
    ensures IsSixDigitCode(code)
    ensures cache.entries == WithCode(old(cache.entries), userId, code)
  {
    var n :| 100000 <= n <= 999999;
    assert Pow10(5) == 100000 && Pow10(6) == 1000000;
    NatToStringLength(n, 5);
    code := NatToString(n);
    cache.Set(VerificationKey(userId), Text(code), CodeTimeout);
    cache.Set(CodeKey(code), Number(userId), CodeTimeout);
  }

  /**
   * Generating a second code for the same user replaces the user's entry, but
   * the reverse entry of the first code stays in the cache.
   */
  lemma RegenerateKeepsOldReverseEntry(entries: map<string, CacheEntry>, userId: nat, first: string, second: string)
    requires first != second
    ensures var after := WithCode(WithCode(entries, userId, first), userId, second);
      && after[VerificationKey(userId)].value == Text(second)
      && CodeKey(first) in after && after[CodeKey(first)].value == Number(userId)
  {
    KeysAreDistinct(userId, userId, first, second);
  }
}

=== FILE: user_views.dfy ===
/**
 * users/views.py: `RegisterUserView.post` (create the user, open the
 * balance, issue a verification code) and `VerifyEmailCodeView.post`, a
 * small state machine over the cache and the user's `is_verified` flag.
 * The two e-mails are not sent: whether sending raises is a parameter.
 */
module UsersViews {
  import opened Wrappers
  import opened Entities
  import opened Query
  import opened Store
  import opened Text
  import opened UsersVerification
  import opened UsersSerializers
  import opened UsersSignals

  /** The cache key the view reads; a missing `user_id` is formatted as `None`. */
  function KeyFor(userId: Option<nat>): string {
    if userId.Some? then VerificationKey(userId.value) else "verification_code_None"
  }

  /** Python truthiness of a cached value. */
  predicate Truthy(v: CacheValue) {
    match v
    case Text(t) => t != ""
    case Number(n) => n != 0
    case EnrollmentRows(es) => es != []
    case CourseRows(cs) => cs != []
  }

  /** The four answers of the view, and the two uncaught exceptions. */
  datatype VerifyOutcome =
    | ExpiredOrInvalid  // 400 "The verification code has expired or is invalid."
    | Verified          // 200 "Verification successful! ..."
    | UserNotFound      // 404 "User not found."
    | Incorrect         // 400 "Incorrect verification code."
    | ServerError       // 500: `MultipleObjectsReturned`
    | MailError         // 500: `send_success_email` raised after `user.save()`

  function VerifyStatus(o: VerifyOutcome): (code: int)
    ensures code == 200 <==> o == Verified
    ensures code == 400 <==> o == ExpiredOrInvalid || o == Incorrect
  {
    match o
    case ExpiredOrInvalid => 400
    case Verified => 200
    case UserNotFound => 404
    case Incorrect => 400
    case ServerError => 500
    case MailError => 500
  }

  predicate IdIs(u: User, userId: Option<nat>) {
    userId.Some? && u.id == userId.value
  }

  /** `cached_code == code`: only a string equal to the submitted code matches. */
  predicate Matches(cached: CacheValue, code: Option<string>) {
    code.Some? && cached == Text(code.value)
  }

  /** A live cached code equal to the submitted one. */
  predicate CodeAccepted(entries: map<string, CacheEntry>, userId: Option<nat>, code: Option<string>) {
    KeyFor(userId) in entries && Truthy(entries[KeyFor(userId)].value) && Matches(entries[KeyFor(userId)].value, code)
  }

  /**
   * The answer of the view for the given users and cache; `mailFails` says
   * whether `send_success_email` raises.
   */
  function VerifyOutcomeOf(users: seq<User>, entries: map<string, CacheEntry>, userId: Option<nat>, code: Option<string>,
                           mailFails: bool)
    : (r: VerifyOutcome)
    ensures r == ExpiredOrInvalid <==> KeyFor(userId) !in entries || !Truthy(entries[KeyFor(userId)].value)
    ensures r == Incorrect <==>
      KeyFor(userId) in entries && Truthy(entries[KeyFor(userId)].value) && !Matches(entries[KeyFor(userId)].value, code)
    ensures r == Verified <==>
      CodeAccepted(entries, userId, code) && Get(users, (u: User) => IdIs(u, userId)).Found? && !mailFails
    ensures r == MailError <==>
      CodeAccepted(entries, userId, code) && Get(users, (u: User) => IdIs(u, userId)).Found? && mailFails
    ensures r == UserNotFound <==> CodeAccepted(entries, userId, code) && forall u :: u in users ==> !IdIs(u, userId)
  {
    var key := KeyFor(userId);
    if key !in entries || !Truthy(entries[key].value) then ExpiredOrInvalid
    else if Matches(entries[key].value, code) then
      match Get(users, (u: User) => IdIs(u, userId))
      case DoesNotExist => UserNotFound
      case MultipleObjectsReturned => ServerError
      case Found(_) => if mailFails then MailError else Verified
    else Incorrect
  }

  /**
   * `VerifyEmailCodeView.post`: on a matching code for an existing user, sets
   * `is_verified`, sends the success mail and deletes the code. When the mail
   * raises, the flag is already saved and the code stays cached. Every other
   * answer changes nothing.
   */
  method VerifyEmailCode(db: Db, cache: Cache, userId: Option<nat>, code: Option<string>, mailFails: bool)
    returns (outcome: VerifyOutcome)
    modifies db`users, cache
    ensures outcome == VerifyOutcomeOf(old(db.users), old(cache.entries), userId, code, mailFails)
    ensures outcome != Verified && outcome != MailError ==>
      db.users == old(db.users) && cache.entries == old(cache.entries)
    ensures outcome == Verified || outcome == MailError ==>
      var user := Get(old(db.users), (u: User) => IdIs(u, userId)).row;
      db.users == SaveRow(old(db.users), UserKey, user.(isVerified := true))
    ensures outcome == Verified ==> cache.entries == old(cache.entries) - {KeyFor(userId)}
    ensures outcome == MailError ==> cache.entries == old(cache.entries)
  {
    var key := KeyFor(userId);
    var cached := cache.Get(key);
    if cached.None? || !Truthy(cached.value) {
      return ExpiredOrInvalid;
    }
    if Matches(cached.value, code) {
      match Get(db.users, (u: User) => IdIs(u, userId)) {
        case DoesNotExist =>
          return UserNotFound;
        case MultipleObjectsReturned =>
          return ServerError;
        case Found(user) =>
          db.users := SaveRow(db.users, UserKey, user.(isVerified := true));
          if mailFails {
            return MailError;
          }
      }
      cache.Delete(key);
      return Verified;
    }
    return Incorrect;
  }

  /** A successful verification deletes the code, so repeating it answers "expired". */
  lemma RepeatedVerificationExpires(
    users: seq<User>, entries: map<string, CacheEntry>, userId: Option<nat>, code: Option<string>,
    laterUsers: seq<User>, laterMailFails: bool)
    requires VerifyOutcomeOf(users, entries, userId, code, false) == Verified
    ensures VerifyOutcomeOf(laterUsers, entries - {KeyFor(userId)}, userId, code, laterMailFails) == ExpiredOrInvalid
  {
  }

  /**
   * A failed success mail leaves the user verified and the code cached, so
   * replaying the same code verifies the user again.
   */
  lemma FailedMailLeavesCodeReplayable(
    users: seq<User>, entries: map<string, CacheEntry>, userId: Option<nat>, code: Option<string>)
    requires VerifyOutcomeOf(users, entries, userId, code, true) == MailError
    ensures var user := Get(users, (u: User) => IdIs(u, userId)).row;
      var saved := SaveRow(users, UserKey, user.(isVerified := true));
      && VerifyOutcomeOf(saved, entries, userId, code, false) == Verified
      && forall u :: u in saved && IdIs(u, userId) ==> u.isVerified
  {
    var user := Get(users, (u: User) => IdIs(u, userId)).row;
    var saved := SaveRow(users, UserKey, user.(isVerified := true));
    FilterSameCount(users, (u: User) => IdIs(u, userId), saved, (u: User) => IdIs(u, userId));
    var found := Filter(saved, (u: User) => IdIs(u, userId));
    assert found[0] in found;
  }

  /** Ids strictly increase along the table, as primary keys do. */
  predicate IdsIncreasing(users: seq<User>) {
    forall i, j :: 0 <= i < j < |users| ==> users[i].id < users[j].id
  }

  /**
   * The code just generated for an existing user verifies that user; any
   * other submitted code is answered "incorrect".
   */
  lemma GeneratedCodeVerifies(users: seq<User>, entries: map<string, CacheEntry>, k: nat, code: string, submitted: string)
    requires IdsIncreasing(users) && k < |users|
    requires IsSixDigitCode(code)
    ensures var after := WithCode(entries, users[k].id, code);
      && VerifyOutcomeOf(users, after, Some(users[k].id), Some(submitted), false)
         == (if submitted == code then Verified else Incorrect)
  {
    var uid := users[k].id;
    forall j | 0 <= j < |users| && j != k ensures !IdIs(users[j], Some(uid)) {
      if j < k { assert users[j].id < uid; } else { assert uid < users[j].id; }
    }
    FilterSingle(users, (u: User) => IdIs(u, Some(uid)), k);
  }

  /** The answers of `RegisterUserView.post`. */
  datatype RegisterOutcome =
    | Registered(userId: UserId, code: string)             // 201 {"message": ..., "user_id": ...}
    | Invalid(error: RegistrationError)                    // 400 from `is_valid(raise_exception=True)`
    | BalanceRefused(userId: UserId)                       // the balance row already existed (uncaught)
    | VerificationMailError(userId: UserId, code: string)  // 500: `send_verification_email` raised

  /** `role` as `create_user` stores it: 'instructor', otherwise the default 'student'. */
  function RoleOf(attrs: map<string, string>): Role {
    if "role" in attrs && attrs["role"] == "instructor" then Instructor else Student
  }

  function FieldOr(attrs: map<string, string>, field: string): string {
    if field in attrs then attrs[field] else ""
  }

  /** The row `CustomUser.objects.create_user(**validated_data)` inserts: neither verified nor staff. */
  function NewUser(id: UserId, validated: map<string, string>): (u: User)
    ensures u.id == id && !u.isVerified && !u.isStaff
    ensures u.password == Hashed(FieldOr(validated, PasswordField))
  {
    User(id, FieldOr(validated, "username"), FieldOr(validated, "email"),
         Hashed(FieldOr(validated, PasswordField)), RoleOf(validated), false, false)
  }

  /** `UserRegistrationSerializer.create`: inserts the new user under the next primary key. */
  method CreateUser(db: Db, validated: map<string, string>) returns (id: UserId)
    requires db.Valid()
    modifies db`users, db`nextId
    ensures db.Valid()
    ensures id == old(db.nextId) && db.nextId == id + 1
    ensures db.users == old(db.users) + [NewUser(id, validated)]
  {
    id := db.nextId;
    var user := NewUser(id, validated);
    KeysIncreasingAppend(db.users, UserKey, id, user);
    db.users := db.users + [user];
    db.nextId := id + 1;
  }

  /**
   * `RegisterUserView.post`: validates, creates the user (whose `post_save`
   * receiver opens the balance), generates the verification code for the new
   * id, sends it, and answers with that id. `mailFails` says whether
   * `send_verification_email` raises; the writes before it are kept.
   */
  method RegisterUser(db: Db, cache: Cache, attrs: map<string, string>, mailFails: bool) returns (outcome: RegisterOutcome)
    requires db.Valid()
    modifies db`users, db`nextId, db`balances, cache
    ensures db.Valid()
    ensures outcome.Invalid? <==> ValidateRegistration(attrs).Err?
    ensures outcome.Invalid? ==>
      && outcome.error == ValidateRegistration(attrs).error
      && db.users == old(db.users) && db.balances == old(db.balances) && cache.entries == old(cache.entries)
    ensures !outcome.Invalid? ==>
      var id := old(db.nextId);
      && db.users == old(db.users) + [NewUser(id, ValidateRegistration(attrs).value)]
      && (outcome.BalanceRefused? <==> id in old(db.balances))
      && db.balances == BalancesAfterSave(old(db.balances), id, true)
    ensures outcome.BalanceRefused? ==> cache.entries == old(cache.entries)
    ensures !outcome.Invalid? && !outcome.BalanceRefused? ==> (outcome.VerificationMailError? <==> mailFails)
    ensures outcome.Registered? || outcome.VerificationMailError? ==>
      && outcome.userId == old(db.nextId)
      && db.balances[outcome.userId] == InitialBalance
      && IsSixDigitCode(outcome.code)
      && cache.entries == WithCode(old(cache.entries), outcome.userId, outcome.code)
  {
    var validated := ValidateRegistration(attrs);
    if validated.Err? {
      return Invalid(validated.error);
    }
    var id := CreateUser(db, validated.value);
    var signal := CreateAccountBalance(db, id, true);
    if signal.Err? {
      return BalanceRefused(id);
    }
    var code := GenerateVerificationCode(cache, id);
    if mailFails {
      return VerificationMailError(id, code);
    }
    outcome := Registered(id, code);
  }
}

=== FILE: wrappers.dfy ===
/** Failure-compatible wrappers used for the source's exceptions and `None` results. */
module Wrappers {

  /** A value that may be absent: Python's `None` or a missing key. */
  datatype Option<+T> = None | Some(value: T)

  /** The outcome of an operation that either returns a value or raises an error. */
  datatype Result<+T, +E> = Ok(value: T) | Err(error: E)
}
